=== FILE: README.md ===
# Submission form, review dashboard and admin bootstrap — a verified Dafny model

The application lets anyone submit an entry through a public form: a name, a description, a photo and an optional location. Administrators review the entries in a dashboard that lists and searches them. A serverless `setup-admin` function provisions the administrator account. Most of the code is React rendering and calls to a hosted backend. This project lifts out the decision rules inside that glue and proves what they do:

- **Submission form** (`SubmissionForm`): which photos it accepts (MIME type first, then a 5 MiB limit); the validator, where the first failing check wins; the row inserted into `submissions` (trimmed text, blank location fields become null); the stored file's extension; the city/state fallback applied to a reverse-geocoding reply; and the idle/error/success transition of a submit, including the reset after a success.
- **Dashboard** (`Admin`): the case-insensitive substring search over name, description, city and state, with its blank-query shortcut; the fetch result; and card selection. A consistency invariant covers the filtered list, and the "Showing X of Y" counter is bounded.
- **Location presentation** (`Location`, `SubmissionCard`, `SubmissionDetail`): the `", "`-joined location text with falsy parts dropped, and when the location badge, the coordinate badge and the "No location provided" fallback are visible.
- **Admin bootstrap** (`SetupAdmin`): the request handler as a transition over an abstract store. The store holds the accounts and a multiset of `user_roles` rows. The outcome of each backend call is a parameter. Every response is a value: status, headers and body. The proofs cover the preflight, the setup-key and environment checks, and that a failed step stops the handler. They also cover the PGRST116 "no row" reading and the store invariant, which allows at most one admin row per account. Finally, they prove idempotence of a repeat call and repair after a partial failure.
- **Lifecycle**: a submitted entry is read back by the dashboard and shows the name, description and location text that were entered (after trimming).

Shared pieces: `JsValues` models JavaScript values that may be null (`Option`), truthiness, `||` chains and `??`. `Strings` models `trim` (the full ECMAScript whitespace and line-terminator set), `toLowerCase`, `includes`, `split` and `join`. For `split` and `join` both round trips are proved.

The backend is abstract throughout. The form receives the upload and insert errors and the public URL as inputs. The dashboard receives the query result as an input. The bootstrap handler receives a `Backend` value that says which calls fail and which id `createUser` returns. Its role lookup answers from the store, as PostgREST's `.single()` does: one row is found; zero or several rows give error `PGRST116`.

Some behaviour of the code worth knowing:
- A failed dashboard fetch is only logged; both lists keep their contents.
- The photo check also accepts the literal type `image/jpg`.
- The name error message says "less than 100 characters", but exactly 100 characters pass.
- The bootstrap model covers `supabase/functions/setup-admin/index.ts`, which reports every failed backend call with status 502.

## Model

| member | source | states |
|---|---|---|
| `JsValues.FirstTruthy` | src/components/SubmissionForm.tsx:93-94 | a `||` chain yields the first truthy value, or the fallback when none is truthy |
| `JsValues.Coalesce` | supabase/functions/setup-admin/index.ts:44 | `x ?? fallback` keeps any present value, the empty string included, and gives the fallback only for null or undefined |
| `Strings.Trim` | src/components/SubmissionForm.tsx:119-127 | `trim` removes only whitespace, from both ends, leaving a slice that neither starts nor ends with whitespace; the result is empty iff the input is all whitespace |
| `Strings.TrimIdempotent` | src/components/SubmissionForm.tsx:172-176 | trimming a trimmed value changes nothing |
| `Strings.LowerKeepsBlank` | src/pages/Admin.tsx:56-59 | lower-casing a query keeps it blank exactly when it was blank |
| `Strings.Lower` | src/pages/Admin.tsx:59-66 | `toLowerCase` keeps the length and maps each character on its own (upper-case Basic Latin and Latin-1 letters to lower case, everything else unchanged) |
| `Strings.Includes` | src/pages/Admin.tsx:63-66 | `includes` holds iff the needle occurs at some position of the haystack, so never for a longer needle and always for the empty one |
| `Strings.Split` | src/components/SubmissionForm.tsx:156 | `split(".")` yields at least one piece and no piece contains the separator |
| `Strings.Join` | src/components/SubmissionDetail.tsx:38 | the joined text starts with the first piece |
| `Strings.JoinSplit` | src/components/SubmissionForm.tsx:156 | joining the pieces of `split(".")` with "." gives back the file name |
| `Strings.SplitJoin` | src/components/SubmissionForm.tsx:156 | splitting a "."-join of dot-free pieces gives back the pieces |
| `Strings.LastPieceAfterLastSeparator` | src/components/SubmissionForm.tsx:156 | the last piece of a split is the text after the last separator, or the whole string when there is none |
| `Location.TruthyValues` | src/components/SubmissionCard.tsx:25 | `filter(Boolean)` is an order-preserving subsequence of the parts holding every truthy value as often as the parts do and nothing else; it is empty iff no part is truthy |
| `Location.LocationText` | src/components/SubmissionDetail.tsx:36-38 | both truthy parts give "city, state", one gives that part alone, none gives "" |
| `Location.LocationTextEmptyIff` | src/components/SubmissionDetail.tsx:36-38 | the location text is empty iff neither city nor state is truthy |
| `Location.FalsyPartsDropped` | src/components/SubmissionCard.tsx:25 | null, undefined and "" parts are dropped alike |
| `SubmissionCard.RenderCard` | src/components/SubmissionCard.tsx:25-51 | the location span shows iff city or state is truthy; its text is "city, state" or the single truthy part |
| `SubmissionDetail.RenderDetail` | src/components/SubmissionDetail.tsx:34-84 | null renders nothing; location badge iff city or state truthy; coordinate badge iff latitude and longitude both truthy; a bare "0" iff latitude is 0, or latitude is truthy and longitude is 0; fallback iff no text and latitude falsy |
| `SubmissionDetail.FallbackExcludesBadges` | src/components/SubmissionDetail.tsx:69-81 | whenever the fallback shows, neither badge does |
| `SubmissionDetail.FallbackIgnoresLongitude` | src/components/SubmissionDetail.tsx:81 | the fallback does not depend on the longitude |
| `SubmissionDetail.ZeroLatitudeReadsAsNoLocation` | src/components/SubmissionDetail.tsx:75-81 | as written, a record at latitude 0 with no city/state shows "No location provided" and a bare "0", and hides its coordinates |
| `SubmissionDetail.ZeroLongitudeShowsBareZero` | src/components/SubmissionDetail.tsx:75-81 | as written, a record at longitude 0 with no city/state shows only a bare "0": no badge and no fallback |
| `SubmissionDetail.RenderLocationIntended` | src/components/SubmissionDetail.tsx:69-81 | intended rule: coordinates show iff both are non-null; no stray number; the fallback shows iff no badge does |
| `SubmissionDetail.IntendedSectionExactlyOne` | src/components/SubmissionDetail.tsx:69-81 | under the intended rule exactly one of "some badge" and "the fallback" is shown |
| `SubmissionDetail.IntendedAgreesAwayFromZero` | src/components/SubmissionDetail.tsx:75-81 | when both coordinates are absent, or both present and non-zero, the intended rule shows exactly what the code shows |
| `SubmissionForm.TypeMatchesIffAllowed` | src/components/SubmissionForm.tsx:42 | the anchored pattern matches exactly image/jpeg, image/png and image/jpg |
| `SubmissionForm.CheckPhoto` | src/components/SubmissionForm.tsx:42-58 | a wrong type is rejected first; an allowed type is accepted iff its size is at most 5242880 bytes |
| `SubmissionForm.ChangePhoto` | src/components/SubmissionForm.tsx:38-62 | no file or a rejected file leaves the state (and the previous photo) unchanged, a rejection raises a destructive toast; only an accepted file replaces the photo |
| `SubmissionForm.ValidationError.Message` | src/components/SubmissionForm.tsx:120-136 | each inline message starts with the field its check is about (Name, Description, Photo) |
| `SubmissionForm.MessagesDistinct` | src/components/SubmissionForm.tsx:120-136 | different checks have different messages, so the text tells which check failed |
| `SubmissionForm.Validate` | src/components/SubmissionForm.tsx:118-140 | no error iff all five checks pass; otherwise the error's check fails and every earlier check passes |
| `SubmissionForm.WhitespaceNameIsRequired` | src/components/SubmissionForm.tsx:119-122 | a spaces-only name fails with "Name is required" |
| `SubmissionForm.NameLengthBoundary` | src/components/SubmissionForm.tsx:119-126 | 100 characters pass; 101 untrimmed characters fail as too long even when mostly spaces |
| `SubmissionForm.NormalizeLocation` | src/components/SubmissionForm.tsx:175-176 | a location field is stored null iff it is blank, else trimmed and non-empty |
| `SubmissionForm.BuildRow` | src/components/SubmissionForm.tsx:171-179 | the row holds the trimmed name and description, the URL, normalised city/state and the coordinates unchanged |
| `SubmissionForm.RowIsNormalized` | src/components/SubmissionForm.tsx:171-176 | normalising the row's own values again leaves them unchanged |
| `SubmissionForm.FileExtension` | src/components/SubmissionForm.tsx:156 | the extension is a dot-free suffix of the name that is the whole name or follows a "." |
| `SubmissionForm.ExtensionCases` | src/components/SubmissionForm.tsx:156 | without a dot the extension is the whole name; with one it is strictly shorter |
| `SubmissionForm.StoredFileName` | src/components/SubmissionForm.tsx:157 | the object key is exactly the generated prefix, a dot and the photo's extension |
| `SubmissionForm.AddressCity` | src/components/SubmissionForm.tsx:93 | city, else town, else village, else "" |
| `SubmissionForm.AddressState` | src/components/SubmissionForm.tsx:94 | state, else "" |
| `SubmissionForm.Locate` | src/components/SubmissionForm.tsx:64-116 | a position sets both coordinates and an address overwrites city/state; failures change no field; name and description are never touched |
| `SubmissionForm.LocateIdempotent` | src/components/SubmissionForm.tsx:64-116 | locating again with the same answer changes nothing more |
| `SubmissionForm.LocateKeepsCoordinatesPaired` | src/components/SubmissionForm.tsx:64-116 | locating never leaves one coordinate set without the other |
| `SubmissionForm.Submit` | src/components/SubmissionForm.tsx:142-213 | status ends success iff validation, upload and insert all succeed; a validation failure makes no backend call; an upload failure makes no insert; backend errors keep the input, show `message` or the fallback inline and raise a destructive "Submission failed" toast with `message` or "Please try again later."; success resets the form |
| `SubmissionForm.ResubmitAfterSuccessIsRejected` | src/components/SubmissionForm.tsx:189-198 | right after a success, a second submit stops at "Name is required" without a backend call |
| `SubmissionForm.FailureKeepsInput` | src/components/SubmissionForm.tsx:201-209 | a failed submit keeps the entered data and photo |
| `Admin.KeepMatching` | src/pages/Admin.tsx:60-67 | the filter is an order-preserving subsequence holding each matching record as often as the list does, and nothing else |
| `Admin.Matches` | src/pages/Admin.tsx:62-66 | a record matches iff the query occurs at some position of its lower-cased name, description, or present city or state; the empty query matches every record |
| `Admin.Filter` | src/pages/Admin.tsx:55-70 | a blank query returns the full list; otherwise a record is kept iff the lower-cased query is in one of its four lower-cased fields |
| `Sequences.SubsequenceNotLonger` | src/pages/Admin.tsx:121 | a subsequence is never longer than the list |
| `Admin.FilterIgnoresQueryCase` | src/pages/Admin.tsx:59-66 | lower-casing the query first gives the same result |
| `Admin.NullLocationNeverMatches` | src/pages/Admin.tsx:65-66 | a record with null city and state matches on name and description alone |
| `Admin.SingleMatch` | src/pages/Admin.tsx:60-67 | when only one record matches, the filter returns exactly that record |
| `Admin.QueryIsNotTrimmed` | src/pages/Admin.tsx:56-59 | " Jane" does not find a record named "Jane" while "Jane" does |
| `Admin.Refilter` | src/pages/Admin.tsx:55-70 | the search effect makes the visible list the filter of the full list, nothing else changes |
| `Admin.ApplyFetch` | src/pages/Admin.tsx:33-49 | success sets the list to the rows or [] for null and the visible list to its filter by the current query; failure leaves both lists; loading ends |
| `Admin.SetQuery` | src/pages/Admin.tsx:114-115 | typing changes only the query and re-filters |
| `Admin.ClickCard` | src/pages/Admin.tsx:72-75 | selects the record and opens the dialog, nothing else changes |
| `Admin.SetDetailOpen` | src/pages/Admin.tsx:181-185 | only the dialog's open flag changes; the selection, the lists, the query and the loading flag are kept |
| `Admin.StepKeepsConsistent` | src/pages/Admin.tsx:41-75 | every event keeps the visible list equal to the filtered full list |
| `Admin.InitialIsConsistent` | src/pages/Admin.tsx:26-29 | the initial state is consistent |
| `Admin.ShowingAtMostTotal` | src/pages/Admin.tsx:121 | "Showing X of Y" never has X > Y |
| `Admin.CardPropsFor` | src/pages/Admin.tsx:164-174 | the card receives the record's name, description, city and state |
| `Admin.CardAndDetailAgree` | src/pages/Admin.tsx:164-185 | the card and the dialog show the same location text for a record |
| `SetupAdmin.FindUser` | supabase/functions/setup-admin/index.ts:49-53 | absent iff no account has the email; otherwise the first account with it |
| `SetupAdmin.CheckRole` | supabase/functions/setup-admin/index.ts:57-64 | found iff exactly one admin row exists; otherwise the PGRST116 error, or the injected failure |
| `SetupAdmin.Handle` | supabase/functions/setup-admin/index.ts:8-128 | statuses are 200/403/500/502; non-200 adds no role row; at most one account, with the request's email, is appended; 403/500 make no call and change nothing |
| `SetupAdmin.EnsureRole` | supabase/functions/setup-admin/index.ts:51-88 | accounts untouched; 200 answers "ensured"; a 502 leaves the store; at most the one admin row is added |
| `SetupAdmin.CreateAdmin` | supabase/functions/setup-admin/index.ts:91-120 | 200 means one account with the returned id and its admin row were added and the id is returned |
| `SetupAdmin.PreflightAnswered` | supabase/functions/setup-admin/index.ts:9-10 | OPTIONS gets the CORS headers and no body, and changes nothing |
| `SetupAdmin.WrongKeyRefused` | supabase/functions/setup-admin/index.ts:17-22 | a key other than INITIAL_ADMIN_SETUP_2024 gets 403 with no call and no change |
| `SetupAdmin.MissingEnvRefused` | supabase/functions/setup-admin/index.ts:24-32 | a missing or empty URL or key gets 500 with no call and no change |
| `SetupAdmin.BackendFailureStops` | supabase/functions/setup-admin/index.ts:41-115 | a 502 comes from the last call made, all earlier calls succeeded, and only a failed role insert after a creation leaves the new account behind |
| `SetupAdmin.ExistingAdminUntouched` | supabase/functions/setup-admin/index.ts:57-87 | an account that has its admin row is left alone and "ensured" is answered |
| `SetupAdmin.ExistingUserGetsRole` | supabase/functions/setup-admin/index.ts:71-87 | an account without one gets exactly one admin row and no account is created |
| `SetupAdmin.NoRowsCodeMeansNoRole` | supabase/functions/setup-admin/index.ts:64 | a PGRST116 role-query error acts exactly like "no admin row" |
| `SetupAdmin.NewEmailCreatesAdmin` | supabase/functions/setup-admin/index.ts:92-119 | an unknown email gets one account, then one admin row for its id, and a 200 with that id |
| `SetupAdmin.HandleKeepsValid` | supabase/functions/setup-admin/index.ts:49-115 | whatever the backend answers, no account ends with two admin rows and no role row loses its account |
| `SetupAdmin.RepeatIsIdempotent` | supabase/functions/setup-admin/index.ts:49-87 | after a success, the same request changes nothing and answers "ensured" |
| `SetupAdmin.RepeatRepairsPartialFailure` | supabase/functions/setup-admin/index.ts:71-115 | after "created, role insert failed", a repeat adds the one missing admin row and creates nothing |
| `Lifecycle.StoredLocationMatchesInput` | src/components/SubmissionForm.tsx:175-176 | the stored record's location text is that of the trimmed entered city and state |
| `Lifecycle.SubmittedRecordDisplaysInput` | src/components/SubmissionForm.tsx:171-179 | a submitted entry is shown by card and dialog with the trimmed name, description and location text |
| `Lifecycle.JaneDoeScenario` | src/components/SubmissionForm.tsx:142-199 | "Jane Doe", "A test entry", a 2 MB JPEG, no location: success, and the dialog shows "No location provided" |
| `Lifecycle.SearchFindsDescriptionWord` | src/pages/Admin.tsx:59-64 | "TEST" and "test" both find the record whose description is "A test entry" |

## Left out

- Rendering, styling, dialogs, routing and the layout page `src/pages/Index.tsx`: only the visibility decisions are modelled.
- Backend calls (storage upload, `getPublicUrl`, table insert and select, `auth.admin`): their outcomes are parameters, not implementations.
- The browser geolocation API and the reverse-geocoding `fetch`: `SubmissionForm.Locate` takes their result as a `Geolocation` value.
- `Date.now()` and `Math.random()` in the object key: the key's prefix is a parameter of `SubmissionForm.Submit`.
- The form's `isLoading`, `isLocating`, the photo preview object URL, and clearing the file input element: these are presentation state.
- The start of a dashboard refresh, which sets loading to true (src/pages/Admin.tsx:34), is not an event of `Admin.Step`; only its completion, `Admin.ApplyFetch`, is.
- Field edits in the form (`onChange`) are plain assignments and are not modelled separately.
- Date formatting and the `toFixed` display of coordinates.
- The descending `created_at` order: the backend query enforces it.
- Console logging of failures.
- The dashboard's sign-out button and the authentication context. The refresh button re-runs the fetch modelled by `Admin.ApplyFetch`.
- Empty-state headings of the dashboard.
- Strings.Lower: `toLowerCase` maps only upper-case letters of the Basic Latin and Latin-1 Supplement blocks; full Unicode case mapping, including mappings that change length, is not modelled.
- Strings: strings are sequences of code points, not UTF-16 code units.
- Strings.Join: its own contract only says that the text starts with the first piece; what follows is pinned, for a one-character separator, by the round trips `Strings.JoinSplit` and `Strings.SplitJoin`; the two-part `", "` join the views use is pinned by `Location.LocationText`'s contract.
- SubmissionForm.Validate: the length limits count code points, while `name.length` in JavaScript counts UTF-16 code units, so a name of 60 emoji (length 120 in JavaScript) is rejected by the code but passes the model's limit of 100.
- JsValues.NumberTruthy: NaN is not modelled, so every non-zero number is truthy.
- SetupAdmin.Handle: exceptions thrown by backend client calls (answered with 500 by the catch block) are not modelled; only the failed JSON parse reaches that path.
- SetupAdmin.Handle: `listUsers` is taken to return every account; its pagination is not modelled.
- SetupAdmin.Handle: the password and the pre-confirmed flag of a created account are not part of the abstract store.
- SetupAdmin.HandleKeepsValid: assumes that an injected role-query failure does not carry the PGRST116 code, and that a created account gets an id no account has. The backend, not this code, guarantees both.
- Concurrent bootstrap calls (the check-then-insert race) and asynchronous interleaving: the model runs one request at a time.

## Findings

| source | as written | input that shows it | evidently intended | confidence | as-written member | corrected member |
|---|---|---|---|---|---|---|
| src/components/SubmissionDetail.tsx:75-81 | the coordinate badge and the "No location provided" fallback test `latitude` and `longitude` by truthiness, so a coordinate of 0 counts as missing | latitude 0.0, longitude 10.0, no city or state: the fallback is shown, the coordinates are hidden and a bare "0" is printed; latitude 51.5, longitude 0.0, no city or state: the location section shows only a bare "0" (the value of the guard), with no badge and no fallback | coordinates are present when non-null, no bare number is printed, and the fallback appears only when there is neither location text nor coordinates | medium, not executed | `SubmissionDetail.ZeroLatitudeReadsAsNoLocation` | `SubmissionDetail.IntendedSectionExactlyOne` |

=== FILE: admin.dfy ===
/** The admin dashboard: the fetched list, the client-side search filter, the
    "Showing X of Y" counter and card selection. */
module Admin {
  import opened JsValues
  import opened Strings
  import opened Records
  import opened Sequences
  import SubmissionCard
  import SubmissionDetail

  /** The dashboard's component state. */
  datatype DashboardState = DashboardState(
    submissions: seq<Submission>,
    filtered: seq<Submission>,
    query: string,
    selected: Option<Submission>,
    detailOpen: bool,
    loading: bool)

  const InitialDashboard: DashboardState := DashboardState([], [], "", None, false, true)

  // ---------------------------------------------------------------- search

  /** The query occurs at some position of the lower-cased text. */
  ghost predicate OccursIn(text: string, q: string) {
    exists i :: OccursAt(Lower(text), q, i)
  }

  /** `s.<field>?.toLowerCase().includes(q)` for a field that may be null: null never matches. */
  predicate FieldIncludes(field: Option<string>, q: string)
    ensures FieldIncludes(field, q) <==> field.Some? && OccursIn(field.value, q)
  {
    field.Some? && Includes(Lower(field.value), q)
  }

  /** A record matches an already lower-cased query when one of its four text fields,
      lower-cased, includes it: the query occurs at some position of a present field,
      and the empty query matches every record. */
  predicate Matches(s: Submission, q: string)
    ensures Matches(s, q) <==>
              || OccursIn(s.name, q) || OccursIn(s.description, q)
              || (s.locationCity.Some? && OccursIn(s.locationCity.value, q))
              || (s.locationState.Some? && OccursIn(s.locationState.value, q))
    ensures q == [] ==> Matches(s, q)
  {
    assert OccursAt(Lower(s.name), [], 0);
    || Includes(Lower(s.name), q)
    || Includes(Lower(s.description), q)
    || FieldIncludes(s.locationCity, q)
    || FieldIncludes(s.locationState, q)
  }

  /** `subs.filter(s => Matches(s, q))`: an order-preserving subsequence holding every
      matching record exactly as often as the full list does, and nothing else. */
  function KeepMatching(subs: seq<Submission>, q: string): (r: seq<Submission>)
    ensures forall x :: multiset(r)[x] == if Matches(x, q) then multiset(subs)[x] else 0
    ensures forall k :: 0 <= k < |r| ==> Matches(r[k], q)
    ensures IsSubsequence(r, subs)
    decreases |subs|
  {
    if subs == [] then []
    else
      var rest := KeepMatching(subs[1..], q);
      assert subs == [subs[0]] + subs[1..];
      assert multiset(subs) == multiset{subs[0]} + multiset(subs[1..]);
      if Matches(subs[0], q) then [subs[0]] + rest else rest
  }

  /** The search effect: a blank query shows everything; otherwise the query is
      lower-cased, but not trimmed, and records are kept when they match it. */
  function Filter(subs: seq<Submission>, query: string): (r: seq<Submission>)
    ensures IsBlank(query) ==> r == subs
    ensures !IsBlank(query) ==> forall x :: x in r <==> x in subs && Matches(x, Lower(query))
    ensures !IsBlank(query) ==> forall x :: multiset(r)[x] == if Matches(x, Lower(query)) then multiset(subs)[x] else 0
    ensures IsSubsequence(r, subs) && |r| <= |subs|
  {
    if IsBlank(query) then
      SubsequenceReflexive(subs);
      subs
    else
      var r := KeepMatching(subs, Lower(query));
      SubsequenceNotLonger(r, subs);
      r
  }

  /** Changing the case of the query changes nothing. */
  lemma FilterIgnoresQueryCase(subs: seq<Submission>, query: string)
    ensures Filter(subs, Lower(query)) == Filter(subs, query)
  {
    LowerKeepsBlank(query);
    LowerIdempotent(query);
  }

  /** A record with neither city nor state is matched on its name and description alone. */
  lemma NullLocationNeverMatches(s: Submission, q: string)
    requires s.locationCity.None? && s.locationState.None?
    ensures Matches(s, q) <==> Includes(Lower(s.name), q) || Includes(Lower(s.description), q)
  {
  }

  /** When exactly one record matches, the filter returns exactly that record. */
  lemma {:induction false} SingleMatch(subs: seq<Submission>, q: string, k: nat)
    requires k < |subs| && Matches(subs[k], q)
    requires forall i :: 0 <= i < |subs| && i != k ==> !Matches(subs[i], q)
    ensures KeepMatching(subs, q) == [subs[k]]
    decreases |subs|
  {
    if k == 0 {
      NoneMatch(subs[1..], q);
    } else {
      SingleMatch(subs[1..], q, k - 1);
    }
  }

  lemma {:induction false} NoneMatch(subs: seq<Submission>, q: string)
    requires forall i :: 0 <= i < |subs| ==> !Matches(subs[i], q)
    ensures KeepMatching(subs, q) == []
    decreases |subs|
  {
    if subs != [] {
      NoneMatch(subs[1..], q);
    }
  }

  /** Surrounding spaces in a non-blank query take part in the match: " Jane" does not
      find a record named "Jane" whose other fields are empty, while "Jane" does. */
  lemma QueryIsNotTrimmed()
    ensures var s := Submission("1", "Jane", "", "u", None, None, None, None, "t");
            && !IsBlank(" Jane") && Filter([s], " Jane") == []
            && Filter([s], "Jane") == [s]
  {
    var s := Submission("1", "Jane", "", "u", None, None, None, None, "t");
    assert !IsWhitespace(" Jane"[1]);
    assert !IsWhitespace("Jane"[0]);
    assert Lower(" Jane") == " jane";
    assert Lower("Jane") == "jane";
    assert Lower("") == "";
    assert Lower(s.name) == "jane";
    assert !Includes("jane", " jane");
    assert !Includes("", " jane");
    assert Includes("jane", "jane") by { assert IsPrefix("jane", "jane"); }
    assert Matches(s, "jane");
    SingleMatch([s], "jane", 0);
    NoneMatch([s], " jane");
  }

  // ---------------------------------------------------------------- state transitions

  /** A result of the submissions query: rows (possibly null) or an error. */
  datatype FetchResult = Fetched(data: Option<seq<Submission>>) | FetchFailed(message: string)

  /** The state the search effect keeps: the visible list is the filter of the full list. */
  ghost predicate Consistent(st: DashboardState) {
    st.filtered == Filter(st.submissions, st.query)
  }

  /** The search effect, run whenever the query or the full list changes. */
  function Refilter(st: DashboardState): (st': DashboardState)
    ensures Consistent(st')
    ensures st' == st.(filtered := st'.filtered)
  {
    st.(filtered := Filter(st.submissions, st.query))
  }

  /** `fetchSubmissions` completing: success replaces both lists with the rows (or [] for
      null) and the search effect then re-applies the query; failure is only logged and
      leaves both lists as they were. Loading ends either way. */
  function ApplyFetch(st: DashboardState, result: FetchResult): (st': DashboardState)
    ensures !st'.loading
    ensures st'.query == st.query && st'.selected == st.selected && st'.detailOpen == st.detailOpen
    ensures result.Fetched? && result.data.Some? ==> st'.submissions == result.data.value
    ensures result.Fetched? && result.data.None? ==> st'.submissions == []
    ensures result.FetchFailed? ==> st'.submissions == st.submissions && st'.filtered == st.filtered
    ensures result.Fetched? ==> st'.filtered == Filter(st'.submissions, st.query)
  {
    match result
    case Fetched(data) =>
      var rows := if data.Some? then data.value else [];
      Refilter(st.(submissions := rows, filtered := rows, loading := false))
    case FetchFailed(_) =>
      st.(loading := false)
  }

  /** Typing in the search box: the query changes and the effect re-filters. */
  function SetQuery(st: DashboardState, query: string): (st': DashboardState)
    ensures st'.query == query && st'.submissions == st.submissions
    ensures st'.selected == st.selected && st'.detailOpen == st.detailOpen && st'.loading == st.loading
    ensures Consistent(st')
  {
    Refilter(st.(query := query))
  }

  /** `handleCardClick`: selects the record and opens the detail view, nothing else. */
  function ClickCard(st: DashboardState, s: Submission): (st': DashboardState)
    ensures st'.selected == Some(s) && st'.detailOpen
    ensures st'.submissions == st.submissions && st'.filtered == st.filtered
    ensures st'.query == st.query && st'.loading == st.loading
  {
    st.(selected := Some(s), detailOpen := true)
  }

  /** The dialog's open-change callback; the last selection is kept. */
  function SetDetailOpen(st: DashboardState, open: bool): (st': DashboardState)
    ensures st'.detailOpen == open && st'.selected == st.selected
    ensures st'.submissions == st.submissions && st'.filtered == st.filtered && st'.query == st.query
    ensures st'.loading == st.loading
  {
    st.(detailOpen := open)
  }

  datatype Event = FetchDone(result: FetchResult) | Typed(query: string) | Clicked(s: Submission) | DialogOpen(open: bool)

  function Step(st: DashboardState, ev: Event): DashboardState {
    match ev
    case FetchDone(result) => ApplyFetch(st, result)
    case Typed(q) => SetQuery(st, q)
    case Clicked(s) => ClickCard(st, s)
    case DialogOpen(open) => SetDetailOpen(st, open)
  }

  /** Every event keeps the visible list equal to the filtered full list. */
  lemma StepKeepsConsistent(st: DashboardState, ev: Event)
    requires Consistent(st)
    ensures Consistent(Step(st, ev))
  {
    match ev
    case FetchDone(result) =>
      if result.FetchFailed? {
        assert Step(st, ev) == st.(loading := false);
      }
    case Typed(q) =>
    case Clicked(s) =>
      assert Step(st, ev) == st.(selected := Some(s), detailOpen := true);
    case DialogOpen(open) =>
      assert Step(st, ev) == st.(detailOpen := open);
  }

  /** The initial state is consistent: nothing loaded, nothing shown. This is the blank
      query clause of `Filter`'s contract applied to the empty list. */
  lemma InitialIsConsistent()
    ensures Consistent(InitialDashboard)
  {
  }

  /** "Showing X of Y": in a consistent state X never exceeds Y. This is the length
      clause of `Filter`'s contract, read through `Consistent`. */
  lemma ShowingAtMostTotal(st: DashboardState)
    requires Consistent(st)
    ensures |st.filtered| <= |st.submissions|
  {
  }

  // ---------------------------------------------------------------- rendering

  /** The properties the dashboard gives a record's card. */
  function CardPropsFor(s: Submission): (p: SubmissionCard.CardProps)
    ensures p.name == s.name && p.description == s.description
    ensures p.locationCity == s.locationCity && p.locationState == s.locationState
  {
    SubmissionCard.CardProps(s.id, s.name, s.description, s.photoUrl, s.locationCity, s.locationState, s.createdAt)
  }

  /** The card and the detail dialog show the same location text for a record. */
  lemma CardAndDetailAgree(s: Submission, open: bool)
    ensures SubmissionCard.RenderCard(CardPropsFor(s)).locationText
            == SubmissionDetail.RenderDetail(Some(s), open).value.locationText
  {
  }
}

=== FILE: jsvalues.dfy ===
/** JavaScript value conventions the application code relies on: values that may be
    null or undefined, truthiness of strings and numbers, and the `||` and `??`
    operators used to pick a fallback. */
module JsValues {

  /** A value that may be absent; `None` stands for both `null` and `undefined`. */
  datatype Option<+T> = None | Some(value: T)

  /** `Boolean(x)` for a string that may be absent: only a present, non-empty string is truthy. */
  predicate Truthy(x: Option<string>) {
    x.Some? && x.value != ""
  }

  /** `Boolean(x)` for a number that may be absent: null and 0 are falsy (NaN is not modelled). */
  predicate NumberTruthy(x: Option<real>) {
    x.Some? && x.value != 0.0
  }

  /** `xs[0] || xs[1] || ... || fallback` over string values that may be absent:
      the first truthy value, or the fallback when there is none. */
  function FirstTruthy(xs: seq<Option<string>>, fallback: string): (r: string)
    ensures (forall i :: 0 <= i < |xs| ==> !Truthy(xs[i])) ==> r == fallback
    ensures forall i :: 0 <= i < |xs| && Truthy(xs[i]) && (forall j :: 0 <= j < i ==> !Truthy(xs[j]))
                        ==> r == xs[i].value
    ensures r == fallback || exists i :: 0 <= i < |xs| && xs[i] == Some(r) && r != ""
  {
    if |xs| == 0 then fallback
    else if Truthy(xs[0]) then xs[0].value
    else FirstTruthy(xs[1..], fallback)
  }

  /** `x ?? fallback`: unlike `||`, an empty string is kept. */
  function Coalesce(x: Option<string>, fallback: string): (r: string)
    ensures x.Some? ==> r == x.value
    ensures x.None? ==> r == fallback
  {
    match x
    case Some(v) => v
    case None => fallback
  }

  /** `s || null` for a string: the empty string becomes null. */
  function NullIfEmpty(s: string): (r: Option<string>)
    ensures Truthy(r) <==> s != ""
    ensures r.Some? ==> r.value == s
  {
    if s == "" then None else Some(s)
  }
}

=== FILE: lifecycle.dfy ===
/** A submission's whole path: entered in the form, inserted, read back by the
    dashboard and shown in the card and the detail dialog. */
module Lifecycle {
  import opened JsValues
  import opened Strings
  import opened Records
  import opened Location
  import opened SubmissionForm
  import SubmissionDetail
  import SubmissionCard
  import Admin

  /** What the user typed for the location comes back as the location text of the stored
      record, trimmed: blank fields disappear, the others are joined with ", ". */
  lemma StoredLocationMatchesInput(data: FormData, url: string, id: string, createdAt: string)
    ensures var s := Stored(BuildRow(data, url), id, createdAt);
            LocationText(s.locationCity, s.locationState)
            == LocationText(Some(Trim(data.locationCity)), Some(Trim(data.locationState)))
  {
    var row := BuildRow(data, url);
    FalsyPartsDropped(row.locationCity, row.locationState, Some(Trim(data.locationCity)), Some(Trim(data.locationState)));
  }

  /** A successful submit stores a record that the dashboard shows with the entered name,
      description and location text (after trimming). */
  lemma SubmittedRecordDisplaysInput(st: FormState, prefix: string, url: string, id: string, createdAt: string)
    requires Submit(st, prefix, url, None, None).state.status == Success
    ensures var row := Submit(st, prefix, url, None, None).inserted.value;
            var s := Stored(row, id, createdAt);
            var card := SubmissionCard.RenderCard(Admin.CardPropsFor(s));
            var detail := SubmissionDetail.RenderDetail(Some(s), true).value;
            && card.title == Trim(st.data.name) && card.summary == Trim(st.data.description)
            && detail.title == Trim(st.data.name) && detail.description == Trim(st.data.description)
            && card.locationText == detail.locationText
            && detail.locationText == LocationText(Some(Trim(st.data.locationCity)), Some(Trim(st.data.locationState)))
  {
    StoredLocationMatchesInput(st.data, url, id, createdAt);
    var s := Stored(Submit(st, prefix, url, None, None).inserted.value, id, createdAt);
    Admin.CardAndDetailAgree(s, true);
  }

  /** "Jane Doe", "A test entry", a 2 MB JPEG and no location: the photo is accepted, the
      submit succeeds, and the stored record's dialog says "No location provided", under
      the rule as written and under the intended rule alike. */
  lemma JaneDoeScenario(prefix: string, url: string, id: string, createdAt: string)
    ensures var photo := PhotoFile("jane.jpg", "image/jpeg", 2 * 1024 * 1024);
            var picked := ChangePhoto(InitialState, Some(photo)).state;
            var st := picked.(data := picked.data.(name := "Jane Doe", description := "A test entry"));
            var r := Submit(st, prefix, url, None, None);
            && picked.photo == Some(photo)
            && r.state.status == Success
            && r.inserted.Some?
            && var s := Stored(r.inserted.value, id, createdAt);
               && s.name == "Jane Doe" && s.description == "A test entry"
               && SubmissionDetail.RenderDetail(Some(s), true).value.showNoLocation
               && SubmissionDetail.RenderLocationIntended(s).showNoLocation
  {
    var photo := PhotoFile("jane.jpg", "image/jpeg", 2 * 1024 * 1024);
    assert CheckPhoto(photo) == Accepted;
    assert !IsWhitespace("Jane Doe"[0]) && !IsWhitespace("Jane Doe"[7]);
    assert !IsWhitespace("A test entry"[0]) && !IsWhitespace("A test entry"[11]);
    assert TrimStart("Jane Doe") == "Jane Doe";
    assert TrimEnd("Jane Doe") == "Jane Doe";
    assert TrimStart("A test entry") == "A test entry";
    assert TrimEnd("A test entry") == "A test entry";
    assert Trim("") == "";
    assert IsBlank("");
  }

  /** The dashboard search finds a record by a word of its description in any case. */
  lemma SearchFindsDescriptionWord()
    ensures var s := Submission("1", "Jane Doe", "A test entry", "u", None, None, None, None, "t");
            Admin.Filter([s], "TEST") == [s] && Admin.Filter([s], "test") == [s]
  {
    var s := Submission("1", "Jane Doe", "A test entry", "u", None, None, None, None, "t");
    DescriptionWordMatches(s);
    assert !IsWhitespace("test"[0]);
    LowerOfTest();
    Admin.SingleMatch([s], "test", 0);
    assert Admin.Filter([s], "test") == [s];
    Admin.FilterIgnoresQueryCase([s], "TEST");
  }

  lemma LowerOfTest()
    ensures Lower("TEST") == "test" && Lower("test") == "test"
  {
    var u := Lower("TEST");
    assert u[0] == 't' && u[1] == 'e' && u[2] == 's' && u[3] == 't';
    var l := Lower("test");
    assert l[0] == 't' && l[1] == 'e' && l[2] == 's' && l[3] == 't';
  }

  lemma DescriptionWordMatches(s: Submission)
    requires s.description == "A test entry"
    ensures Admin.Matches(s, "test")
  {
    var d := Lower(s.description);
    assert d[2] == 't' && d[3] == 'e' && d[4] == 's' && d[5] == 't';
    assert d[2..6] == "test";
    assert OccursAt(d, "test", 2);
  }
}

=== FILE: location.dfy ===
/** The location text shown by the submission card and the detail view:
    `[city, state].filter(Boolean).join(", ")`. */
module Location {
  import opened JsValues
  import opened Strings
  import opened Sequences

  const Separator: string := ", "

  /** The strings of `r`, each as a present value. */
  function Present(r: seq<string>): (p: seq<Option<string>>)
    ensures |p| == |r| && forall k :: 0 <= k < |r| ==> p[k] == Some(r[k])
  {
    if r == [] then [] else [Some(r[0])] + Present(r[1..])
  }

  /** `xs.filter(Boolean)` over strings that may be absent: the truthy values of `xs`,
      in their order, each as often as it occurs there, and nothing else. */
  function TruthyValues(xs: seq<Option<string>>): (r: seq<string>)
    ensures IsSubsequence(Present(r), xs)
    ensures forall x :: multiset(Present(r))[x] == if Truthy(x) then multiset(xs)[x] else 0
    ensures |r| <= |xs|
    ensures forall k :: 0 <= k < |r| ==> r[k] != ""
    ensures |r| == 0 <==> forall i :: 0 <= i < |xs| ==> !Truthy(xs[i])
    decreases |xs|
  {
    if |xs| == 0 then []
    else
      var rest := TruthyValues(xs[1..]);
      assert xs == [xs[0]] + xs[1..];
      KeepStep(xs[0], xs[1..], rest);
      var r := if Truthy(xs[0]) then [xs[0].value] + rest else rest;
      SubsequenceNotLonger(Present(r), xs);
      KeptAreTruthy(xs, r);
      KeptEmptyIff(xs, r);
      r
  }

  /** Every kept value is non-empty. */
  lemma KeptAreTruthy(xs: seq<Option<string>>, r: seq<string>)
    requires forall x :: multiset(Present(r))[x] == if Truthy(x) then multiset(xs)[x] else 0
    ensures forall k :: 0 <= k < |r| ==> r[k] != ""
  {
    var p := Present(r);
    forall k | 0 <= k < |r|
      ensures r[k] != ""
    {
      assert p[k] in multiset(p);
    }
  }

  /** Nothing is kept exactly when nothing is truthy. */
  lemma KeptEmptyIff(xs: seq<Option<string>>, r: seq<string>)
    requires forall x :: multiset(Present(r))[x] == if Truthy(x) then multiset(xs)[x] else 0
    ensures |r| == 0 <==> forall i :: 0 <= i < |xs| ==> !Truthy(xs[i])
  {
    var p := Present(r);
    if |r| == 0 {
      forall i | 0 <= i < |xs|
        ensures !Truthy(xs[i])
      {
        assert xs[i] in multiset(xs);
        assert multiset(p)[xs[i]] == 0;
      }
    } else {
      assert p[0] in multiset(p);
      assert p[0] in multiset(xs);
      var i :| 0 <= i < |xs| && xs[i] == p[0];
      assert Truthy(xs[i]);
    }
  }

  /** One step of the filter: putting `x` in front of the input puts its value in front
      of the output exactly when it is truthy. */
  lemma {:induction false} KeepStep(x: Option<string>, tl: seq<Option<string>>, rest: seq<string>)
    requires IsSubsequence(Present(rest), tl)
    requires forall y :: multiset(Present(rest))[y] == if Truthy(y) then multiset(tl)[y] else 0
    ensures var r := if Truthy(x) then [x.value] + rest else rest;
            && IsSubsequence(Present(r), [x] + tl)
            && forall y :: multiset(Present(r))[y] == if Truthy(y) then multiset([x] + tl)[y] else 0
  {
    var xs := [x] + tl;
    assert xs[1..] == tl;
    assert multiset(xs) == multiset{x} + multiset(tl);
    if Truthy(x) {
      var p := Present([x.value] + rest);
      assert p == [x] + Present(rest);
      assert p[1..] == Present(rest);
      assert multiset(p) == multiset{x} + multiset(Present(rest));
    } else if Present(rest) != [] {
      assert IsSubsequence(Present(rest), xs[1..]);
    }
  }

  /** The location text for a city and a state, either of which may be null,
      undefined (both `None`) or empty: both truthy parts joined by ", ", the one
      truthy part alone, or the empty string. */
  function LocationText(city: Option<string>, state: Option<string>): (r: string)
    ensures Truthy(city) && Truthy(state) ==> r == city.value + ", " + state.value
    ensures Truthy(city) && !Truthy(state) ==> r == city.value
    ensures !Truthy(city) && Truthy(state) ==> r == state.value
    ensures !Truthy(city) && !Truthy(state) ==> r == ""
  {
    JoinedTwoParts(city, state);
    Join(TruthyValues([city, state]), Separator)
  }

  lemma {:induction false} JoinedTwoParts(city: Option<string>, state: Option<string>)
    ensures Join(TruthyValues([city, state]), Separator)
            == if Truthy(city) && Truthy(state) then city.value + ", " + state.value
               else if Truthy(city) then city.value
               else if Truthy(state) then state.value
               else ""
  {
    var xs := [city, state];
    assert xs[1..] == [state];
    assert xs[1..][1..] == [];
    var tail := TruthyValues([state]);
    assert tail == (if Truthy(state) then [state.value] else []);
    assert TruthyValues(xs) == (if Truthy(city) then [city.value] + tail else tail);
    if Truthy(city) && Truthy(state) {
      assert [city.value] + tail == [city.value, state.value];
      assert Join([city.value, state.value], Separator) == city.value + Separator + Join([state.value], Separator);
    }
  }

  /** The text is empty exactly when neither part is truthy. */
  lemma LocationTextEmptyIff(city: Option<string>, state: Option<string>)
    ensures LocationText(city, state) == "" <==> !Truthy(city) && !Truthy(state)
  {
  }

  /** null, undefined and the empty string are dropped alike: the text depends on a
      part only through its truthy value. */
  lemma FalsyPartsDropped(city: Option<string>, state: Option<string>, city': Option<string>, state': Option<string>)
    requires Truthy(city) <==> Truthy(city')
    requires Truthy(city) ==> city.value == city'.value
    requires Truthy(state) <==> Truthy(state')
    requires Truthy(state) ==> state.value == state'.value
    ensures LocationText(city, state) == LocationText(city', state')
  {
  }
}

=== FILE: records.dfy ===
/** The rows of the `submissions` table: the row the form inserts and the record the
    dashboard reads back once the store has assigned an identifier and a timestamp. */
module Records {
  import opened JsValues

  /** The row the submission form inserts. */
  datatype InsertRow = InsertRow(
    name: string,
    description: string,
    photoUrl: string,
    locationCity: Option<string>,
    locationState: Option<string>,
    latitude: Option<real>,
    longitude: Option<real>)

  /** A stored submission as the dashboard receives it. `id` and `createdAt` are
      assigned by the store; `createdAt` is kept as the store's timestamp text. */
  datatype Submission = Submission(
    id: string,
    name: string,
    description: string,
    photoUrl: string,
    locationCity: Option<string>,
    locationState: Option<string>,
    latitude: Option<real>,
    longitude: Option<real>,
    createdAt: string)

  /** The record the store keeps for an inserted row: every column is stored as given. */
  function Stored(row: InsertRow, id: string, createdAt: string): (s: Submission)
    ensures s.id == id && s.createdAt == createdAt
    ensures s.name == row.name && s.description == row.description && s.photoUrl == row.photoUrl
    ensures s.locationCity == row.locationCity && s.locationState == row.locationState
    ensures s.latitude == row.latitude && s.longitude == row.longitude
  {
    Submission(id, row.name, row.description, row.photoUrl, row.locationCity,
               row.locationState, row.latitude, row.longitude, createdAt)
  }
}

=== FILE: sequences.dfy ===
/** Order-preserving selection from a sequence, shared by the filters of the model. */
module Sequences {

  /** `a` is `b` with some elements removed, order kept. */
  ghost predicate IsSubsequence<T>(a: seq<T>, b: seq<T>)
    decreases |b|
  {
    if a == [] then true
    else if b == [] then false
    else (a[0] == b[0] && IsSubsequence(a[1..], b[1..])) || IsSubsequence(a, b[1..])
  }

  lemma {:induction false} SubsequenceNotLonger<T>(a: seq<T>, b: seq<T>)
    requires IsSubsequence(a, b)
    ensures |a| <= |b|
    decreases |b|
  {
    if a != [] {
      if a[0] == b[0] && IsSubsequence(a[1..], b[1..]) {
        SubsequenceNotLonger(a[1..], b[1..]);
      } else {
        SubsequenceNotLonger(a, b[1..]);
      }
    }
  }

  lemma {:induction false} SubsequenceReflexive<T>(a: seq<T>)
    ensures IsSubsequence(a, a)
    decreases |a|
  {
    if a != [] {
      SubsequenceReflexive(a[1..]);
    }
  }
}

=== FILE: setup_admin.dfy ===
/** The `setup-admin` HTTP function: it makes sure that the account for an email exists
    and holds an `admin` role row. It is modelled as a transition over an abstract
    store of accounts and role rows. The outcome of each backend call is injected. */
module SetupAdmin {
  import opened JsValues

  const SetupKey: string := "INITIAL_ADMIN_SETUP_2024"
  /** The PostgREST error code for "`.single()` found no single row". */
  const NoRowsCode: string := "PGRST116"
  const AdminRole: string := "admin"

  const EnsuredMessage: string := "Admin role ensured for existing user"
  const CreatedMessage: string := "Admin user created successfully"

  const CorsHeaders: map<string, string> := map[
    "Access-Control-Allow-Origin" := "*",
    "Access-Control-Allow-Headers" := "authorization, x-client-info, apikey, content-type"]
  const JsonHeaders: map<string, string> := CorsHeaders["Content-Type" := "application/json"]

  // ---------------------------------------------------------------- store

  datatype User = User(id: string, email: string)
  datatype RoleRow = RoleRow(userId: string, role: string)

  /** The accounts in the order `listUsers` returns them, and the `user_roles` rows. */
  datatype Store = Store(users: seq<User>, roles: multiset<RoleRow>)

  function UserIds(s: Store): set<string> {
    set u | u in s.users :: u.id
  }

  function AdminRows(s: Store, id: string): nat {
    s.roles[RoleRow(id, AdminRole)]
  }

  /** The store invariant the handler keeps: every role row belongs to an account (the
      table's foreign key) and no account holds two admin rows. */
  ghost predicate Valid(s: Store) {
    && (forall r :: r in s.roles ==> r.userId in UserIds(s))
    && (forall id :: AdminRows(s, id) <= 1)
  }

  /** `users.find(u => u.email === email)`: the first account with this email. */
  function FindUser(users: seq<User>, email: string): (r: Option<User>)
    ensures r.None? <==> forall k :: 0 <= k < |users| ==> users[k].email != email
    ensures r.Some? ==> r.value in users && r.value.email == email
    ensures r.Some? ==> exists k :: 0 <= k < |users| && users[k] == r.value && FirstWithEmail(users, email, k)
    decreases |users|
  {
    if users == [] then None
    else if users[0].email == email then
      assert FirstWithEmail(users, email, 0);
      Some(users[0])
    else
      var r := FindUser(users[1..], email);
      FirstWithEmailShift(users, email);
      r
  }

  predicate FirstWithEmail(users: seq<User>, email: string, k: int) {
    0 <= k < |users| && users[k].email == email && forall j :: 0 <= j < k ==> users[j].email != email
  }

  lemma FirstWithEmailShift(users: seq<User>, email: string)
    requires users != [] && users[0].email != email
    ensures forall k :: FirstWithEmail(users[1..], email, k) ==> FirstWithEmail(users, email, k + 1)
  {
  }

  lemma FindUserAfterAppend(users: seq<User>, email: string, u: User)
    ensures FindUser(users, email).Some? ==> FindUser(users + [u], email) == FindUser(users, email)
    ensures FindUser(users, email).None? && u.email == email ==> FindUser(users + [u], email) == Some(u)
    decreases |users|
  {
    if users != [] {
      assert (users + [u])[1..] == users[1..] + [u];
      FindUserAfterAppend(users[1..], email, u);
    }
  }

  // ---------------------------------------------------------------- request, environment, backend

  /** The parsed request body; `setupKey` is `None` when missing or not a string. */
  datatype Body = Malformed(reason: string) | Json(email: string, password: string, setupKey: Option<string>)
  datatype Request = Request(httpMethod: string, body: Body)

  /** `SUPABASE_URL` and `SUPABASE_SERVICE_ROLE_KEY` as read from the environment. */
  datatype Env = Env(url: Option<string>, serviceRoleKey: Option<string>)

  /** An error object returned by a backend call. */
  datatype BackendError = BackendError(code: Option<string>, message: Option<string>)

  /** How the backend answers this request's calls. `roleCheckError` is a failure of the
      role query itself (the store's own no-row answer is derived from the store);
      `createdId` is the id in the `createUser` reply, `None` when the reply has none. */
  datatype Backend = Backend(
    listError: Option<BackendError>,
    roleCheckError: Option<BackendError>,
    insertError: Option<BackendError>,
    createError: Option<BackendError>,
    createdId: Option<string>)

  /** The backend calls a request made, in order. */
  datatype Call = ListUsers | SelectAdminRole(userId: string) | InsertAdminRole(userId: string) | CreateUser(email: string)

  datatype ResponseBody = NoBody | ErrorBody(error: string) | MessageBody(message: string) | CreatedBody(message: string, userId: string)
  datatype Response = Response(status: nat, headers: map<string, string>, body: ResponseBody)

  /** The handler's result: the response, the store afterwards and the calls made. */
  datatype Outcome = Outcome(response: Response, store: Store, calls: seq<Call>)

  function JsonResponse(status: nat, body: ResponseBody): Response {
    Response(status, JsonHeaders, body)
  }

  function BackendFailure(e: BackendError, fallback: string): Response {
    JsonResponse(502, ErrorBody(Coalesce(e.message, fallback)))
  }

  /** The answer of the `.single()` role query: the row when exactly one admin row exists,
      otherwise the PostgREST no-single-row error; or the injected failure. */
  datatype RoleCheck = RoleCheck(found: bool, error: Option<BackendError>)

  function CheckRole(s: Store, id: string, b: Backend): (c: RoleCheck)
    ensures b.roleCheckError.None? ==> (c.found <==> AdminRows(s, id) == 1)
    ensures b.roleCheckError.None? && !c.found ==> c.error == Some(BackendError(Some(NoRowsCode), None))
    ensures b.roleCheckError.Some? ==> !c.found && c.error == b.roleCheckError
  {
    if b.roleCheckError.Some? then RoleCheck(false, b.roleCheckError)
    else if AdminRows(s, id) == 1 then RoleCheck(true, None)
    else RoleCheck(false, Some(BackendError(Some(NoRowsCode), None)))
  }

  function AddAdminRow(s: Store, id: string): Store {
    s.(roles := s.roles + multiset{RoleRow(id, AdminRole)})
  }

  // ---------------------------------------------------------------- the handler

  /** The request handler. */
  function Handle(req: Request, env: Env, s: Store, b: Backend): (o: Outcome)
    ensures o.response.status in {200, 403, 500, 502}
    ensures o.response.status != 200 ==> o.store.roles == s.roles
    ensures o.store.users == s.users
            || (&& req.body.Json? && |o.store.users| == |s.users| + 1
                && o.store.users[..|s.users|] == s.users && o.store.users[|s.users|].email == req.body.email)
    ensures o.response.status in {403, 500} ==> o.store == s && o.calls == []
  {
    if req.httpMethod == "OPTIONS" then
      Outcome(Response(200, CorsHeaders, NoBody), s, [])
    else match req.body
    case Malformed(reason) =>
      Outcome(JsonResponse(500, ErrorBody(reason)), s, [])
    case Json(email, password, key) =>
      if key != Some(SetupKey) then
        Outcome(JsonResponse(403, ErrorBody("Invalid setup key")), s, [])
      else if !Truthy(env.url) || !Truthy(env.serviceRoleKey) then
        Outcome(JsonResponse(500, ErrorBody("Missing Supabase environment variables")), s, [])
      else if b.listError.Some? then
        Outcome(BackendFailure(b.listError.value, "Failed to list users"), s, [ListUsers])
      else
        var adminExists := exists k :: 0 <= k < |s.users| && s.users[k].email == email;
        var user := FindUser(s.users, email);
        if adminExists && user.Some? then
          EnsureRole(s, user.value, b)
        else
          CreateAdmin(s, email, b)
  }

  /** The existing-account branch: look up the admin row, insert one when the lookup
      reports none, and answer "ensured". */
  function EnsureRole(s: Store, user: User, b: Backend): (o: Outcome)
    ensures o.store.users == s.users
    ensures o.response.status == 200 ==> o.response == JsonResponse(200, MessageBody(EnsuredMessage))
    ensures o.response.status == 200 || (o.response.status == 502 && o.store == s)
    ensures o.store == s || o.store == AddAdminRow(s, user.id)
    ensures |o.calls| >= 2 && o.calls[..2] == [ListUsers, SelectAdminRole(user.id)]
  {
    var check := CheckRole(s, user.id, b);
    var prefix := [ListUsers, SelectAdminRole(user.id)];
    if check.error.Some? && check.error.value.code != Some(NoRowsCode) then
      Outcome(BackendFailure(check.error.value, "Failed to check user role"), s, prefix)
    else if !check.found then
      if b.insertError.Some? then
        Outcome(BackendFailure(b.insertError.value, "Failed to assign admin role"), s, prefix + [InsertAdminRole(user.id)])
      else
        Outcome(JsonResponse(200, MessageBody(EnsuredMessage)), AddAdminRow(s, user.id), prefix + [InsertAdminRole(user.id)])
    else
      Outcome(JsonResponse(200, MessageBody(EnsuredMessage)), s, prefix)
  }

  /** The new-account branch: create the account, then insert its admin row. A failed
      insert leaves the new account without its role. */
  function CreateAdmin(s: Store, email: string, b: Backend): (o: Outcome)
    ensures o.response.status == 200 || o.response.status == 502
    ensures o.store.roles == s.roles || (Truthy(b.createdId) && o.store.roles == s.roles + multiset{RoleRow(b.createdId.value, AdminRole)})
    ensures o.store.users == s.users || (Truthy(b.createdId) && o.store.users == s.users + [User(b.createdId.value, email)])
    ensures o.response.status == 200 ==>
              && Truthy(b.createdId)
              && o.response == JsonResponse(200, CreatedBody(CreatedMessage, b.createdId.value))
              && o.store == AddAdminRow(Store(s.users + [User(b.createdId.value, email)], s.roles), b.createdId.value)
    ensures |o.calls| >= 2 && o.calls[..2] == [ListUsers, CreateUser(email)]
  {
    var prefix := [ListUsers, CreateUser(email)];
    if b.createError.Some? || !Truthy(b.createdId) then
      var message := if b.createError.Some? then b.createError.value.message else None;
      Outcome(JsonResponse(502, ErrorBody(Coalesce(message, "Failed to create user"))), s, prefix)
    else
      var id := b.createdId.value;
      var created := s.(users := s.users + [User(id, email)]);
      if b.insertError.Some? then
        Outcome(BackendFailure(b.insertError.value, "Failed to assign admin role"), created, prefix + [InsertAdminRole(id)])
      else
        Outcome(JsonResponse(200, CreatedBody(CreatedMessage, id)), AddAdminRow(created, id), prefix + [InsertAdminRole(id)])
  }

  // ---------------------------------------------------------------- properties

  /** The request gets past the preflight, the body, the setup key and the environment checks. */
  predicate Admitted(req: Request, env: Env) {
    && req.httpMethod != "OPTIONS" && req.body.Json? && req.body.setupKey == Some(SetupKey)
    && Truthy(env.url) && Truthy(env.serviceRoleKey)
  }

  /** Every backend call succeeds. */
  predicate Healthy(b: Backend) {
    b.listError.None? && b.roleCheckError.None? && b.insertError.None? && b.createError.None?
  }

  /** What the backend may plausibly answer against this store: an injected role-query
      failure is not the no-row code (that answer comes from the store itself), and a
      created account gets an id no account has. */
  predicate Plausible(s: Store, b: Backend) {
    && (b.roleCheckError.Some? ==> b.roleCheckError.value.code != Some(NoRowsCode))
    && (Truthy(b.createdId) ==> b.createdId.value !in UserIds(s))
  }

  /** The call `c` is one the backend failed. */
  predicate CallFailed(c: Call, b: Backend) {
    match c
    case ListUsers => b.listError.Some?
    case SelectAdminRole(_) => b.roleCheckError.Some? && b.roleCheckError.value.code != Some(NoRowsCode)
    case InsertAdminRole(_) => b.insertError.Some?
    case CreateUser(_) => b.createError.Some? || !Truthy(b.createdId)
  }

  /** A preflight request is answered with the CORS headers and no body, and touches nothing. */
  lemma PreflightAnswered(req: Request, env: Env, s: Store, b: Backend)
    requires req.httpMethod == "OPTIONS"
    ensures Handle(req, env, s, b) == Outcome(Response(200, CorsHeaders, NoBody), s, [])
  {
  }

  /** A wrong or missing setup key is refused with 403 before any backend call. */
  lemma WrongKeyRefused(req: Request, env: Env, s: Store, b: Backend)
    requires req.httpMethod != "OPTIONS" && req.body.Json? && req.body.setupKey != Some(SetupKey)
    ensures Handle(req, env, s, b) == Outcome(JsonResponse(403, ErrorBody("Invalid setup key")), s, [])
  {
  }

  /** A missing or empty URL or service key is refused with 500 before any backend call. */
  lemma MissingEnvRefused(req: Request, env: Env, s: Store, b: Backend)
    requires req.httpMethod != "OPTIONS" && req.body.Json? && req.body.setupKey == Some(SetupKey)
    requires !Truthy(env.url) || !Truthy(env.serviceRoleKey)
    ensures Handle(req, env, s, b) == Outcome(JsonResponse(500, ErrorBody("Missing Supabase environment variables")), s, [])
  {
  }

  /** A 502 means the last call made failed and no later step ran; the store is unchanged
      except after the one partial failure, a created account whose role insert failed. */
  lemma BackendFailureStops(req: Request, env: Env, s: Store, b: Backend)
    requires Admitted(req, env)
    ensures var o := Handle(req, env, s, b);
            o.response.status == 502 ==>
              && |o.calls| >= 1 && CallFailed(o.calls[|o.calls| - 1], b)
              && (forall k :: 0 <= k < |o.calls| - 1 ==> !CallFailed(o.calls[k], b))
              && o.store.roles == s.roles
              && (o.store == s
                  || (&& o.calls == [ListUsers, CreateUser(req.body.email), InsertAdminRole(b.createdId.value)]
                      && o.store.users == s.users + [User(b.createdId.value, req.body.email)]))
  {
  }

  /** An account that already holds its admin row is left alone and the answer is "ensured". */
  lemma ExistingAdminUntouched(req: Request, env: Env, s: Store, b: Backend, u: User)
    requires Admitted(req, env) && b.listError.None? && b.roleCheckError.None?
    requires FindUser(s.users, req.body.email) == Some(u) && AdminRows(s, u.id) == 1
    ensures var o := Handle(req, env, s, b);
            && o.store == s && o.response == JsonResponse(200, MessageBody(EnsuredMessage))
            && o.calls == [ListUsers, SelectAdminRole(u.id)]
  {
  }

  /** An account without an admin row gets exactly one, and no account is created. */
  lemma ExistingUserGetsRole(req: Request, env: Env, s: Store, b: Backend, u: User)
    requires Admitted(req, env) && b.listError.None? && b.roleCheckError.None? && b.insertError.None?
    requires FindUser(s.users, req.body.email) == Some(u) && AdminRows(s, u.id) == 0
    ensures var o := Handle(req, env, s, b);
            && o.store == AddAdminRow(s, u.id) && AdminRows(o.store, u.id) == 1
            && o.response == JsonResponse(200, MessageBody(EnsuredMessage))
            && CreateUser(req.body.email) !in o.calls
  {
  }

  /** A role-query error carrying PGRST116 is read as "no admin row", exactly like the
      store's own no-row answer. */
  lemma NoRowsCodeMeansNoRole(req: Request, env: Env, s: Store, b: Backend, u: User, message: Option<string>)
    requires Admitted(req, env) && b.listError.None? && b.roleCheckError.None?
    requires FindUser(s.users, req.body.email) == Some(u) && AdminRows(s, u.id) == 0
    ensures Handle(req, env, s, b.(roleCheckError := Some(BackendError(Some(NoRowsCode), message))))
            == Handle(req, env, s, b)
  {
  }

  /** An unknown email yields one new account, then one admin row for its id. */
  lemma NewEmailCreatesAdmin(req: Request, env: Env, s: Store, b: Backend, id: string)
    requires Admitted(req, env) && Healthy(b) && b.createdId == Some(id) && id != ""
    requires FindUser(s.users, req.body.email).None?
    ensures var o := Handle(req, env, s, b);
            && o.store.users == s.users + [User(id, req.body.email)]
            && o.store.roles == s.roles + multiset{RoleRow(id, AdminRole)}
            && o.response == JsonResponse(200, CreatedBody(CreatedMessage, id))
            && o.calls == [ListUsers, CreateUser(req.body.email), InsertAdminRole(id)]
  {
  }

  /** No request, whatever the backend answers, gives an account a second admin row or
      leaves a role row without its account. */
  lemma HandleKeepsValid(req: Request, env: Env, s: Store, b: Backend)
    requires Valid(s) && Plausible(s, b)
    ensures Valid(Handle(req, env, s, b).store)
  {
    if Admitted(req, env) && b.listError.None? {
      var user := FindUser(s.users, req.body.email);
      if user.Some? {
        EnsureRoleKeepsValid(s, user.value, b);
      } else {
        CreateAdminKeepsValid(s, req.body.email, b);
      }
    }
  }

  lemma EnsureRoleKeepsValid(s: Store, user: User, b: Backend)
    requires Valid(s) && Plausible(s, b) && user in s.users
    ensures Valid(EnsureRole(s, user, b).store)
  {
    var o := EnsureRole(s, user, b);
    assert user.id in UserIds(s);
    if o.store != s {
      assert AdminRows(s, user.id) == 0;
      AddAdminRowKeepsValid(s, user.id);
    }
  }

  lemma CreateAdminKeepsValid(s: Store, email: string, b: Backend)
    requires Valid(s) && Plausible(s, b)
    ensures Valid(CreateAdmin(s, email, b).store)
  {
    var o := CreateAdmin(s, email, b);
    if o.store != s {
      var id := b.createdId.value;
      var created := s.(users := s.users + [User(id, email)]);
      assert UserIds(created) == UserIds(s) + {id};
      assert AdminRows(s, id) == 0;
      assert forall x :: AdminRows(created, x) == AdminRows(s, x);
      assert Valid(created);
      if o.store != created {
        AddAdminRowKeepsValid(created, id);
      }
    }
  }

  lemma AddAdminRowKeepsValid(s: Store, id: string)
    requires Valid(s) && id in UserIds(s) && AdminRows(s, id) == 0
    ensures Valid(AddAdminRow(s, id))
  {
    var s' := AddAdminRow(s, id);
    forall other
      ensures AdminRows(s', other) <= 1
    {
      if other != id {
        assert AdminRows(s', other) == AdminRows(s, other);
      }
    }
  }

  /** After a successful request, repeating it with the same email changes nothing and
      answers "ensured". */
  lemma RepeatIsIdempotent(req: Request, env: Env, s: Store, b: Backend, b2: Backend)
    requires Valid(s) && Plausible(s, b) && Admitted(req, env)
    requires Handle(req, env, s, b).response.status == 200
    requires b2.listError.None? && b2.roleCheckError.None?
    ensures var s1 := Handle(req, env, s, b).store;
            var o2 := Handle(req, env, s1, b2);
            o2.store == s1 && o2.response == JsonResponse(200, MessageBody(EnsuredMessage))
  {
    var email := req.body.email;
    var o1 := Handle(req, env, s, b);
    HandleKeepsValid(req, env, s, b);
    var user := FindUser(s.users, email);
    if user.Some? {
      var id := user.value.id;
      assert o1.store.users == s.users;
      assert AdminRows(o1.store, id) >= 1;
      assert AdminRows(o1.store, id) == 1;
      ExistingAdminUntouched(req, env, o1.store, b2, user.value);
    } else {
      var id := b.createdId.value;
      var u := User(id, email);
      FindUserAfterAppend(s.users, email, u);
      assert o1.store.users == s.users + [u];
      assert FindUser(o1.store.users, email) == Some(u);
      assert AdminRows(o1.store, id) == 1;
      ExistingAdminUntouched(req, env, o1.store, b2, u);
    }
  }

  /** After "account created, role insert failed", a healthy repeat adds the missing admin
      row for that account, creates nothing, and the account ends with exactly one row. */
  lemma RepeatRepairsPartialFailure(req: Request, env: Env, s: Store, b: Backend, b2: Backend, id: string)
    requires Valid(s) && Admitted(req, env)
    requires FindUser(s.users, req.body.email).None?
    requires b.listError.None? && b.createError.None? && b.createdId == Some(id) && id != "" && id !in UserIds(s)
    requires b.insertError.Some?
    requires Healthy(b2)
    ensures var o1 := Handle(req, env, s, b);
            var o2 := Handle(req, env, o1.store, b2);
            && o1.response.status == 502
            && o1.store == Store(s.users + [User(id, req.body.email)], s.roles)
            && o2.store == AddAdminRow(o1.store, id)
            && AdminRows(o2.store, id) == 1
            && o2.response == JsonResponse(200, MessageBody(EnsuredMessage))
  {
    var email := req.body.email;
    var u := User(id, email);
    var o1 := Handle(req, env, s, b);
    FindUserAfterAppend(s.users, email, u);
    assert o1.store.users == s.users + [u];
    assert FindUser(o1.store.users, email) == Some(u);
    assert id !in UserIds(s);
    assert AdminRows(s, id) == 0;
    assert AdminRows(o1.store, id) == 0;
    ExistingUserGetsRole(req, env, o1.store, b2, u);
  }
}

=== FILE: strings.dfy ===
/** The JavaScript string operations the application uses: `trim`, `toLowerCase`,
    `includes`, `split` and `join`, on strings as sequences of code points. */
module Strings {

  /** The code points `String.prototype.trim` removes: the ECMAScript WhiteSpace
      (tab, vertical tab, form feed, space, no-break space, byte-order mark and the
      Unicode space separators) and LineTerminator (LF, CR, LS, PS) characters. */
  predicate IsWhitespace(c: char) {
    || c == '\t' || c == '\n' || c == '\U{000B}' || c == '\U{000C}' || c == '\r'
    || c == ' ' || c == '\U{00A0}' || c == '\U{1680}'
    || ('\U{2000}' <= c <= '\U{200A}')
    || c == '\U{2028}' || c == '\U{2029}' || c == '\U{202F}' || c == '\U{205F}'
    || c == '\U{3000}' || c == '\U{FEFF}'
  }

  /** `s.trimStart()`: the suffix left after dropping every leading whitespace character. */
  function TrimStart(s: string): (r: string)
    ensures |r| <= |s| && r == s[|s| - |r|..]
    ensures forall k :: 0 <= k < |s| - |r| ==> IsWhitespace(s[k])
    ensures r == [] || !IsWhitespace(r[0])
    decreases |s|
  {
    if s != [] && IsWhitespace(s[0]) then TrimStart(s[1..]) else s
  }

  /** `s.trimEnd()`: the prefix left after dropping every trailing whitespace character. */
  function TrimEnd(s: string): (r: string)
    ensures |r| <= |s| && r == s[..|r|]
    ensures forall k :: |r| <= k < |s| ==> IsWhitespace(s[k])
    ensures r == [] || !IsWhitespace(r[|r| - 1])
    decreases |s|
  {
    if s != [] && IsWhitespace(s[|s| - 1]) then TrimEnd(s[..|s| - 1]) else s
  }

  /** `s.trim()`: the longest slice of `s` that neither starts nor ends with whitespace,
      obtained by removing only whitespace from both ends. */
  function Trim(s: string): (r: string)
    ensures |r| <= |s|
    ensures r == [] <==> forall k :: 0 <= k < |s| ==> IsWhitespace(s[k])
    ensures r != [] ==> !IsWhitespace(r[0]) && !IsWhitespace(r[|r| - 1])
    ensures exists i :: StrippedAt(s, r, i)
  {
    TrimSlice(s);
    TrimEnd(TrimStart(s))
  }

  /** Trimming the start and then the end leaves a slice of `s` with only whitespace
      around it. */
  lemma TrimSlice(s: string)
    ensures StrippedAt(s, TrimEnd(TrimStart(s)), |s| - |TrimStart(s)|)
  {
    TrimSliceIsSlice(s);
    TrimSliceTrailing(s);
  }

  lemma {:induction false} TrimSliceIsSlice(s: string)
    ensures var t := TrimStart(s); var i := |s| - |t|;
            i + |TrimEnd(t)| <= |s| && TrimEnd(t) == s[i..i + |TrimEnd(t)|]
  {
    var t := TrimStart(s);
    var i := |s| - |t|;
    SliceOfSuffix(s, i, |TrimEnd(t)|);
  }

  lemma SliceOfSuffix(s: string, i: nat, n: nat)
    requires i <= |s| && n <= |s| - i
    ensures s[i..][..n] == s[i..i + n]
  {
  }

  lemma TrimSliceTrailing(s: string)
    ensures var t := TrimStart(s); var i := |s| - |t|;
            forall k :: i + |TrimEnd(t)| <= k < |s| ==> IsWhitespace(s[k])
  {
    var t := TrimStart(s);
    var r := TrimEnd(t);
    var i := |s| - |t|;
    forall k | i + |r| <= k < |s|
      ensures IsWhitespace(s[k])
    {
      assert s[k] == t[k - i];
    }
  }

  /** `r` is the slice of `s` starting at `i`, and everything around it is whitespace. */
  predicate StrippedAt(s: string, r: string, i: int) {
    && 0 <= i <= |s| - |r| && r == s[i..i + |r|]
    && (forall k :: 0 <= k < i ==> IsWhitespace(s[k]))
    && (forall k :: i + |r| <= k < |s| ==> IsWhitespace(s[k]))
  }

  /** `!s.trim()`: the string is empty or consists of whitespace only. */
  predicate IsBlank(s: string) {
    Trim(s) == ""
  }

  lemma BlankIffAllWhitespace(s: string)
    ensures IsBlank(s) <==> forall k :: 0 <= k < |s| ==> IsWhitespace(s[k])
  {
  }

  /** Trimming an already trimmed string changes nothing. */
  lemma TrimIdempotent(s: string)
    ensures Trim(Trim(s)) == Trim(s)
  {
    var r := Trim(s);
    if r != [] {
      assert TrimStart(r) == r;
      assert TrimEnd(r) == r;
    }
  }

  /** `toLowerCase` on one code point. Upper-case letters of the Basic Latin and
      Latin-1 Supplement blocks are mapped; every other code point is kept. */
  function LowerChar(c: char): (r: char)
  {
    if 'A' <= c <= 'Z' || ('\U{00C0}' <= c <= '\U{00DE}' && c != '\U{00D7}')
    then (c as int + 32) as char
    else c
  }

  /** `s.toLowerCase()`, applied code point by code point. */
  function Lower(s: string): (r: string)
    ensures |r| == |s|
    ensures forall k :: 0 <= k < |s| ==> r[k] == LowerChar(s[k])
    decreases |s|
  {
    if s == [] then [] else [LowerChar(s[0])] + Lower(s[1..])
  }

  /** Lower-casing twice is lower-casing once. */
  lemma LowerIdempotent(s: string)
    ensures Lower(Lower(s)) == Lower(s)
  {
  }

  /** Lower-casing neither creates nor removes whitespace, so it keeps a query blank
      exactly when it was blank. */
  lemma LowerKeepsBlank(s: string)
    ensures IsBlank(Lower(s)) <==> IsBlank(s)
  {
    var l := Lower(s);
    forall k | 0 <= k < |s|
      ensures IsWhitespace(l[k]) <==> IsWhitespace(s[k])
    {
      LowerCharKeepsWhitespace(s[k]);
    }
    BlankIffAllWhitespace(s);
    BlankIffAllWhitespace(l);
  }

  lemma LowerCharKeepsWhitespace(c: char)
    ensures IsWhitespace(LowerChar(c)) <==> IsWhitespace(c)
  {
  }

  predicate IsPrefix(p: string, s: string) {
    |p| <= |s| && s[..|p|] == p
  }

  /** `s.includes(sub)`: `sub` occurs in `s` at some position (the empty string occurs
      everywhere, and a longer string nowhere). */
  predicate Includes(s: string, sub: string)
    ensures Includes(s, sub) <==> exists i :: OccursAt(s, sub, i)
    ensures Includes(s, sub) ==> |sub| <= |s|
    decreases |s|
  {
    if s == [] then
      assert IsPrefix(sub, s) ==> OccursAt(s, sub, 0);
      IsPrefix(sub, s)
    else
      OccursShift(s, sub);
      IsPrefix(sub, s) || Includes(s[1..], sub)
  }

  /** `sub` occurs in `s` starting at position `i`. */
  predicate OccursAt(s: string, sub: string, i: int) {
    0 <= i <= |s| - |sub| && s[i..i + |sub|] == sub
  }

  /** An occurrence in `s` is one at its start or one in `s[1..]`, shifted by one. */
  lemma OccursShift(s: string, sub: string)
    requires s != []
    ensures (exists i :: OccursAt(s, sub, i))
            <==> IsPrefix(sub, s) || exists i :: OccursAt(s[1..], sub, i)
  {
    if exists i :: OccursAt(s[1..], sub, i) {
      var i :| OccursAt(s[1..], sub, i);
      assert s[i + 1..i + 1 + |sub|] == s[1..][i..i + |sub|];
      assert OccursAt(s, sub, i + 1);
    }
    if IsPrefix(sub, s) {
      assert OccursAt(s, sub, 0);
    }
    if exists i :: OccursAt(s, sub, i) {
      var i :| OccursAt(s, sub, i);
      if i != 0 {
        assert s[1..][i - 1..i - 1 + |sub|] == s[i..i + |sub|];
        assert OccursAt(s[1..], sub, i - 1);
      }
    }
  }

  /** `parts.join(sep)`. */
  function Join(parts: seq<string>, sep: string): (r: string)
    ensures |parts| >= 1 ==> IsPrefix(parts[0], r)
    decreases |parts|
  {
    if |parts| == 0 then ""
    else if |parts| == 1 then parts[0]
    else parts[0] + sep + Join(parts[1..], sep)
  }

  /** `s.split(sep)` for a one-character separator: the maximal separator-free pieces
      between occurrences of `sep`; there is always at least one piece. */
  function Split(s: string, sep: char): (parts: seq<string>)
    ensures |parts| >= 1
    ensures forall i :: 0 <= i < |parts| ==> sep !in parts[i]
    decreases |s|
  {
    if s == [] then [""]
    else
      var rest := Split(s[1..], sep);
      if s[0] == sep then [""] + rest
      else [[s[0]] + rest[0]] + rest[1..]
  }

  lemma {:induction false} JoinConsFirst(c: char, parts: seq<string>, sep: string)
    requires |parts| >= 1
    ensures Join([[c] + parts[0]] + parts[1..], sep) == [c] + Join(parts, sep)
  {
    var q := [[c] + parts[0]] + parts[1..];
    if |parts| > 1 {
      assert q[1..] == parts[1..];
    }
  }

  /** Joining the pieces of a split with the separator gives back the string. */
  lemma {:induction false} JoinSplit(s: string, sep: char)
    ensures Join(Split(s, sep), [sep]) == s
    decreases |s|
  {
    if s != [] {
      var rest := Split(s[1..], sep);
      JoinSplit(s[1..], sep);
      if s[0] == sep {
        assert ([""] + rest)[1..] == rest;
      } else {
        JoinConsFirst(s[0], rest, [sep]);
      }
    }
  }

  lemma {:induction false} SplitNoSeparator(a: string, sep: char)
    requires sep !in a
    ensures Split(a, sep) == [a]
    decreases |a|
  {
    if a != [] {
      SplitNoSeparator(a[1..], sep);
      assert [a[0]] + a[1..] == a;
    }
  }

  lemma {:induction false} SplitAtSeparator(a: string, sep: char, b: string)
    requires sep !in a
    ensures Split(a + [sep] + b, sep) == [a] + Split(b, sep)
    decreases |a|
  {
    var s := a + [sep] + b;
    if a == [] {
      assert s[1..] == b;
    } else {
      assert s[1..] == a[1..] + [sep] + b;
      SplitAtSeparator(a[1..], sep, b);
      assert [a[0]] + a[1..] == a;
    }
  }

  /** Splitting a join of separator-free pieces gives back the pieces. */
  lemma {:induction false} SplitJoin(parts: seq<string>, sep: char)
    requires |parts| >= 1
    requires forall i :: 0 <= i < |parts| ==> sep !in parts[i]
    ensures Split(Join(parts, [sep]), sep) == parts
    decreases |parts|
  {
    if |parts| == 1 {
      SplitNoSeparator(parts[0], sep);
    } else {
      SplitJoin(parts[1..], sep);
      SplitAtSeparator(parts[0], sep, Join(parts[1..], [sep]));
      assert [parts[0]] + parts[1..] == parts;
    }
  }

  lemma {:induction false} JoinLast(parts: seq<string>, sep: string)
    requires |parts| >= 2
    ensures Join(parts, sep) == Join(parts[..|parts| - 1], sep) + sep + parts[|parts| - 1]
    decreases |parts|
  {
    if |parts| > 2 {
      JoinLast(parts[1..], sep);
      assert parts[1..][..|parts| - 2] == parts[..|parts| - 1][1..];
    }
  }

  /** The last piece of a split is the text after the last separator, or the whole
      string when the separator does not occur. */
  lemma LastPieceAfterLastSeparator(s: string, sep: char)
    ensures var parts := Split(s, sep);
            var last := parts[|parts| - 1];
            && sep !in last
            && |last| <= |s| && s[|s| - |last|..] == last
            && (|last| == |s| || s[|s| - |last| - 1] == sep)
            && (|parts| == 1 <==> sep !in s)
  {
    var parts := Split(s, sep);
    var last := parts[|parts| - 1];
    JoinSplit(s, sep);
    if |parts| == 1 {
      assert s == last;
    } else {
      JoinLast(parts, [sep]);
      var front := Join(parts[..|parts| - 1], [sep]);
      assert s == front + [sep] + last;
      assert s[|s| - |last|..] == last;
      assert s[|s| - |last| - 1] == sep;
    }
  }
}

=== FILE: submission_card.dfy ===
/** What the dashboard's submission card shows about a location. */
module SubmissionCard {
  import opened JsValues
  import opened Location

  /** The card's properties (photo and timestamp are passed through to markup only). */
  datatype CardProps = CardProps(
    id: string,
    name: string,
    description: string,
    photoUrl: string,
    locationCity: Option<string>,
    locationState: Option<string>,
    createdAt: string)

  /** The location-relevant part of a rendered card. */
  datatype CardView = CardView(title: string, summary: string, locationText: string, showLocation: bool)

  /** Renders a card: the map-pin span appears only when there is location text. */
  function RenderCard(p: CardProps): (v: CardView)
    ensures v.title == p.name && v.summary == p.description
    ensures v.showLocation <==> Truthy(p.locationCity) || Truthy(p.locationState)
    ensures v.showLocation ==> v.locationText != ""
    ensures (Truthy(p.locationCity) && Truthy(p.locationState))
              ==> v.locationText == p.locationCity.value + ", " + p.locationState.value
    ensures (Truthy(p.locationCity) != Truthy(p.locationState))
              ==> v.locationText == (if Truthy(p.locationCity) then p.locationCity.value else p.locationState.value)
  {
    var text := LocationText(p.locationCity, p.locationState);
    CardView(p.name, p.description, text, text != "")
  }
}

=== FILE: submission_detail.dfy ===
/** The detail dialog for one submission: which location elements it shows. */
module SubmissionDetail {
  import opened JsValues
  import opened Records
  import opened Location

  /** The location section of the dialog, plus its title and body text. */
  datatype DetailView = DetailView(
    open: bool,
    title: string,
    photoUrl: string,
    description: string,
    locationText: string,
    showLocationBadge: bool,
    showCoordinates: bool,
    showZeroText: bool,
    showNoLocation: bool)

  /** Renders the dialog for the selected submission. A null submission renders nothing.
      The badges and the fallback follow JavaScript truthiness, so a coordinate of 0
      counts as absent, and only the latitude decides the fallback. The coordinate guard
      `latitude && longitude` evaluates to its first falsy operand; when that operand is
      the number 0, the dialog prints a bare "0" in place of the badge (`showZeroText`). */
  function RenderDetail(sub: Option<Submission>, open: bool): (r: Option<DetailView>)
    ensures r.None? <==> sub.None?
    ensures r.Some? ==> var v := r.value; var s := sub.value;
      && v.open == open && v.title == s.name && v.description == s.description
      && v.locationText == LocationText(s.locationCity, s.locationState)
      && (v.showLocationBadge <==> Truthy(s.locationCity) || Truthy(s.locationState))
      && (v.showCoordinates <==> NumberTruthy(s.latitude) && NumberTruthy(s.longitude))
      && (v.showZeroText <==> s.latitude == Some(0.0) || (NumberTruthy(s.latitude) && s.longitude == Some(0.0)))
      && (v.showNoLocation <==> !Truthy(s.locationCity) && !Truthy(s.locationState) && !NumberTruthy(s.latitude))
  {
    match sub
    case None => None
    case Some(s) =>
      var text := LocationText(s.locationCity, s.locationState);
      LocationTextEmptyIff(s.locationCity, s.locationState);
      Some(DetailView(
        open, s.name, s.photoUrl, s.description, text,
        text != "",
        NumberTruthy(s.latitude) && NumberTruthy(s.longitude),
        s.latitude == Some(0.0) || (NumberTruthy(s.latitude) && s.longitude == Some(0.0)),
        text == "" && !NumberTruthy(s.latitude)))
  }

  /** Whenever "No location provided" is shown, neither badge is. */
  lemma FallbackExcludesBadges(s: Submission, open: bool)
    ensures var v := RenderDetail(Some(s), open).value;
            v.showNoLocation ==> !v.showLocationBadge && !v.showCoordinates
  {
  }

  /** The longitude is never consulted for the fallback. */
  lemma FallbackIgnoresLongitude(s: Submission, lon: Option<real>, open: bool)
    ensures RenderDetail(Some(s), open).value.showNoLocation
            == RenderDetail(Some(s.(longitude := lon)), open).value.showNoLocation
  {
  }

  // As written, a coordinate equal to 0 is treated as missing.

  /** A submission on the equator with no city or state: the dialog hides its coordinates,
      prints a bare "0", and claims that no location was provided, although both
      coordinates are present. */
  lemma ZeroLatitudeReadsAsNoLocation()
    ensures var s := Submission("1", "n", "d", "u", None, None, Some(0.0), Some(10.0), "t");
            var v := RenderDetail(Some(s), true).value;
            && s.latitude.Some? && s.longitude.Some?
            && v.showNoLocation && !v.showCoordinates && v.showZeroText
  {
  }

  /** A submission on the prime meridian with no city or state: the location section
      holds only a bare "0": no badge and no fallback. */
  lemma ZeroLongitudeShowsBareZero()
    ensures var s := Submission("1", "n", "d", "u", None, None, Some(51.5), Some(0.0), "t");
            var v := RenderDetail(Some(s), true).value;
            !v.showLocationBadge && !v.showCoordinates && !v.showNoLocation && v.showZeroText
  {
  }

  /** The location section as evidently intended: coordinates are shown when both are
      present (non-null), no stray number is printed, and the fallback appears when
      neither text nor coordinates are. */
  function RenderLocationIntended(s: Submission): (v: DetailView)
    ensures v.showCoordinates <==> s.latitude.Some? && s.longitude.Some?
    ensures !v.showZeroText
    ensures v.showLocationBadge <==> Truthy(s.locationCity) || Truthy(s.locationState)
    ensures v.showNoLocation <==> !v.showLocationBadge && !v.showCoordinates
  {
    var text := LocationText(s.locationCity, s.locationState);
    LocationTextEmptyIff(s.locationCity, s.locationState);
    var coords := s.latitude.Some? && s.longitude.Some?;
    DetailView(true, s.name, s.photoUrl, s.description, text,
               text != "", coords, false, text == "" && !coords)
  }

  /** With the intended rule the section is never empty and never shows the fallback
      beside a badge: exactly one of "some badge" and "the fallback" holds. This is the
      third clause of the contract of `RenderLocationIntended`, read as a whole. */
  lemma IntendedSectionExactlyOne(s: Submission)
    ensures var v := RenderLocationIntended(s);
            (v.showLocationBadge || v.showCoordinates) != v.showNoLocation
  {
  }

  /** The correction changes only the cases with a zero coordinate or a lone coordinate:
      when both coordinates are absent, or both present and non-zero, the intended rule
      shows exactly what the code as written shows. */
  lemma IntendedAgreesAwayFromZero(s: Submission, open: bool)
    requires s.latitude.Some? <==> s.longitude.Some?
    requires s.latitude != Some(0.0) && s.longitude != Some(0.0)
    ensures var v := RenderDetail(Some(s), open).value;
            var w := RenderLocationIntended(s);
            && v.showLocationBadge == w.showLocationBadge
            && v.showCoordinates == w.showCoordinates
            && v.showZeroText == w.showZeroText
            && v.showNoLocation == w.showNoLocation
  {
  }
}

=== FILE: submission_form.dfy ===
/** The public submission form: photo acceptance, validation, the inserted row,
    the stored file's extension, the geolocation assist and the submit transition.
    Backend calls are represented by their outcomes, passed in as parameters. */
module SubmissionForm {
  import opened JsValues
  import opened Strings
  import opened Records

  /** The form's editable fields. */
  datatype FormData = FormData(
    name: string,
    description: string,
    locationCity: string,
    locationState: string,
    latitude: Option<real>,
    longitude: Option<real>)

  /** A file chosen in the photo input: its name, MIME type and size in bytes. */
  datatype PhotoFile = PhotoFile(name: string, mimeType: string, size: nat)

  datatype Status = Idle | Success | Error

  /** The component state that the handlers change. */
  datatype FormState = FormState(data: FormData, photo: Option<PhotoFile>, status: Status, errorMessage: string)

  /** A transient notification. */
  datatype Toast = Toast(title: string, description: string, destructive: bool)

  /** An error object returned by a backend call; its `message` may be missing. */
  datatype BackendError = BackendError(message: Option<string>)

  const InitialData: FormData := FormData("", "", "", "", None, None)
  const InitialState: FormState := FormState(InitialData, None, Idle, "")

  const MaxPhotoBytes: nat := 5 * 1024 * 1024
  const MaxNameLength: nat := 100
  const MaxDescriptionLength: nat := 2000

  // ---------------------------------------------------------------- photo

  /** The photo MIME types the form lists. */
  const AllowedTypes: set<string> := {"image/jpeg", "image/png", "image/jpg"}

  /** `type.match(/^image\/(jpeg|png|jpg)$/)`: the pattern is anchored at both ends and
      case-sensitive, so the whole type must be `image/` followed by one alternative. */
  predicate TypeMatches(t: string) {
    |t| >= 6 && t[..6] == "image/" && (t[6..] == "jpeg" || t[6..] == "png" || t[6..] == "jpg")
  }

  lemma TypeMatchesIffAllowed(t: string)
    ensures TypeMatches(t) <==> t in AllowedTypes
  {
    if t in AllowedTypes {
      assert t[..6] == "image/";
    }
    if TypeMatches(t) {
      assert t == t[..6] + t[6..];
      assert "image/" + "jpeg" == "image/jpeg";
      assert "image/" + "png" == "image/png";
      assert "image/" + "jpg" == "image/jpg";
    }
  }

  datatype PhotoCheck = Accepted | InvalidType | TooLarge

  /** The type is checked first, then the size; exactly 5 MiB is still accepted. */
  function CheckPhoto(f: PhotoFile): (r: PhotoCheck)
    ensures r == Accepted <==> f.mimeType in AllowedTypes && f.size <= 5242880
    ensures r == InvalidType <==> f.mimeType !in AllowedTypes
    ensures r == TooLarge <==> f.mimeType in AllowedTypes && f.size > 5242880
  {
    TypeMatchesIffAllowed(f.mimeType);
    if !TypeMatches(f.mimeType) then InvalidType
    else if f.size > MaxPhotoBytes then TooLarge
    else Accepted
  }

  datatype PhotoChangeResult = PhotoChangeResult(state: FormState, toast: Option<Toast>)

  /** `handlePhotoChange`: no file changes nothing; a rejected file only raises a toast
      and keeps the previously selected photo; an accepted file becomes the photo. */
  function ChangePhoto(st: FormState, file: Option<PhotoFile>): (r: PhotoChangeResult)
    ensures r.state.data == st.data && r.state.status == st.status && r.state.errorMessage == st.errorMessage
    ensures file.None? ==> r == PhotoChangeResult(st, None)
    ensures file.Some? && CheckPhoto(file.value) != Accepted ==> r.state == st && r.toast.Some? && r.toast.value.destructive
    ensures r.state.photo != st.photo ==> file.Some? && r.state.photo == file && file.value.mimeType in AllowedTypes && file.value.size <= MaxPhotoBytes
    ensures file.Some? && CheckPhoto(file.value) == Accepted ==> r.state.photo == file && r.toast.None?
  {
    match file
    case None => PhotoChangeResult(st, None)
    case Some(f) =>
      match CheckPhoto(f)
      case InvalidType =>
        PhotoChangeResult(st, Some(Toast("Invalid file type", "Please upload a JPG or PNG image.", true)))
      case TooLarge =>
        PhotoChangeResult(st, Some(Toast("File too large", "Please upload an image smaller than 5MB.", true)))
      case Accepted =>
        PhotoChangeResult(st.(photo := Some(f)), None)
  }

  // ---------------------------------------------------------------- validation

  datatype ValidationError = NameRequired | NameTooLong | DescriptionRequired | DescriptionTooLong | PhotoRequired
  {
    /** The inline message shown for this error; it starts with the field the check is about. */
    function Message(): (m: string)
      ensures Rank() <= 1 ==> IsPrefix("Name ", m)
      ensures 2 <= Rank() <= 3 ==> IsPrefix("Description ", m)
      ensures Rank() == 4 ==> IsPrefix("Photo ", m)
    {
      match this
      case NameRequired => "Name is required"
      case NameTooLong => "Name must be less than 100 characters"
      case DescriptionRequired => "Description is required"
      case DescriptionTooLong =>
        var m := "Description must be less than 2000 characters";
        assert forall k :: 0 <= k < |"Description "| ==> m[k] == "Description "[k];
        m
      case PhotoRequired => "Photo is required"
    }

    /** The position of this check in the validator. */
    function Rank(): nat {
      match this
      case NameRequired => 0
      case NameTooLong => 1
      case DescriptionRequired => 2
      case DescriptionTooLong => 3
      case PhotoRequired => 4
    }
  }

  /** Each check has its own message, so the inline text tells which check failed. */
  lemma MessagesDistinct(e1: ValidationError, e2: ValidationError)
    requires e1 != e2
    ensures e1.Message() != e2.Message()
  {
  }

  /** Whether the check for `e` fails on this input. Emptiness is judged after trimming,
      length on the untrimmed text. */
  predicate Fails(e: ValidationError, data: FormData, photo: Option<PhotoFile>) {
    match e
    case NameRequired => IsBlank(data.name)
    case NameTooLong => |data.name| > 100
    case DescriptionRequired => IsBlank(data.description)
    case DescriptionTooLong => |data.description| > 2000
    case PhotoRequired => photo.None?
  }

  lemma FailsCases(data: FormData, photo: Option<PhotoFile>)
    ensures Fails(NameRequired, data, photo) == IsBlank(data.name)
    ensures Fails(NameTooLong, data, photo) == (|data.name| > MaxNameLength)
    ensures Fails(DescriptionRequired, data, photo) == IsBlank(data.description)
    ensures Fails(DescriptionTooLong, data, photo) == (|data.description| > MaxDescriptionLength)
    ensures Fails(PhotoRequired, data, photo) == photo.None?
  {
  }

  /** The checks ranked below `k` all pass when their conditions hold. */
  lemma ChecksBelowPass(data: FormData, photo: Option<PhotoFile>, k: nat)
    requires k <= 5
    requires k > 0 ==> !IsBlank(data.name)
    requires k > 1 ==> |data.name| <= MaxNameLength
    requires k > 2 ==> !IsBlank(data.description)
    requires k > 3 ==> |data.description| <= MaxDescriptionLength
    requires k > 4 ==> photo.Some?
    ensures forall e: ValidationError :: e.Rank() < k ==> !Fails(e, data, photo)
    ensures k == 5 ==> forall e: ValidationError :: !Fails(e, data, photo)
  {
    forall e: ValidationError | e.Rank() < k
      ensures !Fails(e, data, photo)
    {
      match e
      case NameRequired =>
      case NameTooLong =>
      case DescriptionRequired =>
      case DescriptionTooLong =>
      case PhotoRequired =>
    }
    if k == 5 {
      forall e: ValidationError
        ensures e.Rank() < 5
      {
        match e
        case NameRequired =>
        case NameTooLong =>
        case DescriptionRequired =>
        case DescriptionTooLong =>
        case PhotoRequired =>
      }
    }
  }

  /** `validateForm`: the first failing check in order, or `None` when all pass. */
  function Validate(data: FormData, photo: Option<PhotoFile>): (r: Option<ValidationError>)
    ensures r.None? ==> forall e: ValidationError :: !Fails(e, data, photo)
    ensures r.Some? ==> Fails(r.value, data, photo)
    ensures r.Some? ==> forall e: ValidationError :: e.Rank() < r.value.Rank() ==> !Fails(e, data, photo)
    ensures r.None? ==> photo.Some?
  {
    FailsCases(data, photo);
    var k := if IsBlank(data.name) then 0
             else if |data.name| > MaxNameLength then 1
             else if IsBlank(data.description) then 2
             else if |data.description| > MaxDescriptionLength then 3
             else if photo.None? then 4
             else 5;
    ChecksBelowPass(data, photo, k);
    if IsBlank(data.name) then Some(NameRequired)
    else if |data.name| > MaxNameLength then Some(NameTooLong)
    else if IsBlank(data.description) then Some(DescriptionRequired)
    else if |data.description| > MaxDescriptionLength then Some(DescriptionTooLong)
    else if photo.None? then Some(PhotoRequired)
    else None
  }

  /** A name of spaces only is reported as missing, whatever else is wrong. */
  lemma WhitespaceNameIsRequired(data: FormData, photo: Option<PhotoFile>)
    requires |data.name| > 0
    requires forall k :: 0 <= k < |data.name| ==> data.name[k] == ' '
    ensures Validate(data, photo) == Some(NameRequired)
  {
    BlankIffAllWhitespace(data.name);
  }

  /** The length limit is on the untrimmed text: 100 characters pass, 101 fail even
      when most of them are surrounding spaces. */
  lemma NameLengthBoundary()
    ensures var hundred := seq(100, _ => 'a');
            var padded := "a" + seq(100, _ => ' ');
            var photo := Some(PhotoFile("p.png", "image/png", 1));
            && Validate(FormData(hundred, "d", "", "", None, None), photo) == None
            && Validate(FormData(padded, "d", "", "", None, None), photo) == Some(NameTooLong)
  {
    var hundred := seq(100, _ => 'a');
    var padded := "a" + seq(100, _ => ' ');
    assert !IsWhitespace(hundred[0]);
    assert !IsWhitespace(padded[0]);
    assert !IsWhitespace("d"[0]);
  }

  // ---------------------------------------------------------------- the inserted row

  /** A location field as stored: trimmed, and null when nothing is left. */
  function NormalizeLocation(s: string): (r: Option<string>)
    ensures r.None? <==> IsBlank(s)
    ensures r.Some? ==> r.value == Trim(s) && r.value != ""
  {
    NullIfEmpty(Trim(s))
  }

  /** The row `handleSubmit` inserts for the form data and the photo's public URL. */
  function BuildRow(data: FormData, photoUrl: string): (row: InsertRow)
    ensures row.name == Trim(data.name) && row.description == Trim(data.description)
    ensures row.photoUrl == photoUrl
    ensures row.locationCity.None? <==> IsBlank(data.locationCity)
    ensures row.locationState.None? <==> IsBlank(data.locationState)
    ensures row.locationCity.Some? ==> row.locationCity.value == Trim(data.locationCity)
    ensures row.locationState.Some? ==> row.locationState.value == Trim(data.locationState)
    ensures row.latitude == data.latitude && row.longitude == data.longitude
  {
    InsertRow(
      Trim(data.name),
      Trim(data.description),
      photoUrl,
      NormalizeLocation(data.locationCity),
      NormalizeLocation(data.locationState),
      data.latitude,
      data.longitude)
  }

  /** The stored fields carry no surrounding whitespace, and a stored location is never
      empty, so normalising a row's own values again leaves them as they are. */
  lemma RowIsNormalized(data: FormData, photoUrl: string)
    ensures var row := BuildRow(data, photoUrl);
            && Trim(row.name) == row.name && Trim(row.description) == row.description
            && (row.locationCity.Some? ==> NormalizeLocation(row.locationCity.value) == row.locationCity)
            && (row.locationState.Some? ==> NormalizeLocation(row.locationState.value) == row.locationState)
  {
    TrimIdempotent(data.name);
    TrimIdempotent(data.description);
    TrimIdempotent(data.locationCity);
    TrimIdempotent(data.locationState);
  }

  // ---------------------------------------------------------------- stored file name

  /** `name.split(".").pop()`. */
  function FileExtension(name: string): (ext: string)
    ensures '.' !in ext
    ensures |ext| <= |name| && name[|name| - |ext|..] == ext
    ensures ext == name || name[|name| - |ext| - 1] == '.'
  {
    var parts := Split(name, '.');
    LastPieceAfterLastSeparator(name, '.');
    parts[|parts| - 1]
  }

  /** Without a dot the whole name is the extension; otherwise it is what follows the last dot. */
  lemma ExtensionCases(name: string)
    ensures '.' !in name ==> FileExtension(name) == name
    ensures '.' in name ==> |FileExtension(name)| < |name|
  {
  }

  /** The object key: a time-and-random prefix (supplied by the caller), a dot and the
      extension. The key starts with the prefix and a dot, and everything after that dot
      is the photo's extension. */
  function StoredFileName(prefix: string, photo: PhotoFile): (key: string)
    ensures IsPrefix(prefix + ".", key)
    ensures key[|prefix| + 1..] == FileExtension(photo.name)
    ensures FileExtension(key) == FileExtension(photo.name)
  {
    var ext := FileExtension(photo.name);
    ExtensionAfterDot(prefix, ext);
    assert (prefix + "." + ext)[..|prefix + "."|] == prefix + ".";
    prefix + "." + ext
  }

  /** A dot-free text after a dot is the extension, whatever precedes the dot. */
  lemma ExtensionAfterDot(a: string, e: string)
    requires '.' !in e
    ensures FileExtension(a + "." + e) == e
  {
    var r := a + "." + e;
    var x := FileExtension(r);
    assert r[|r| - |e|..] == e;
    assert r[|r| - |e| - 1] == '.';
  }

  // ---------------------------------------------------------------- geolocation assist

  /** The `address` object of a reverse-geocoding reply. */
  datatype Address = Address(city: Option<string>, town: Option<string>, village: Option<string>, state: Option<string>)

  datatype Geolocation =
    | Unsupported
    | Denied
    | Located(latitude: real, longitude: real, address: Option<Address>)  // address None: no address, or the lookup failed

  datatype LocateResult = LocateResult(data: FormData, toast: Toast)

  /** The city the form takes from an address: city, else town, else village, else "". */
  function AddressCity(a: Address): (city: string)
    ensures city == "" <==> !Truthy(a.city) && !Truthy(a.town) && !Truthy(a.village)
    ensures Truthy(a.city) ==> city == a.city.value
    ensures !Truthy(a.city) && Truthy(a.town) ==> city == a.town.value
    ensures !Truthy(a.city) && !Truthy(a.town) && Truthy(a.village) ==> city == a.village.value
  {
    var xs := [a.city, a.town, a.village];
    assert xs[0] == a.city && xs[1] == a.town && xs[2] == a.village;
    FirstTruthy(xs, "")
  }

  /** The state the form takes from an address: state, else "". */
  function AddressState(a: Address): (state: string)
    ensures Truthy(a.state) ==> state == a.state.value
    ensures !Truthy(a.state) ==> state == ""
  {
    FirstTruthy([a.state], "")
  }

  /** `getLocation`: a position sets both coordinates; an address, when one came back,
      overwrites city and state; name and description are never touched. */
  function Locate(data: FormData, g: Geolocation): (r: LocateResult)
    ensures r.data.name == data.name && r.data.description == data.description
    ensures !g.Located? ==> r.data == data && r.toast.destructive
    ensures g.Located? ==> r.data.latitude == Some(g.latitude) && r.data.longitude == Some(g.longitude) && !r.toast.destructive
    ensures g.Located? && g.address.None? ==> r.data.locationCity == data.locationCity && r.data.locationState == data.locationState
    ensures g.Located? && g.address.Some? ==>
              r.data.locationCity == AddressCity(g.address.value) && r.data.locationState == AddressState(g.address.value)
  {
    match g
    case Unsupported =>
      LocateResult(data, Toast("Geolocation not supported", "Please enter your location manually.", true))
    case Denied =>
      LocateResult(data, Toast("Location access denied", "Please enter your location manually.", true))
    case Located(lat, lon, address) =>
      var positioned := data.(latitude := Some(lat), longitude := Some(lon));
      var filled := match address
        case None => positioned
        case Some(a) => positioned.(locationCity := AddressCity(a), locationState := AddressState(a));
      LocateResult(filled, Toast("Location captured", "Your location has been detected automatically.", false))
  }

  /** Locating twice with the same answer is the same as locating once. */
  lemma LocateIdempotent(data: FormData, g: Geolocation)
    ensures Locate(Locate(data, g).data, g).data == Locate(data, g).data
  {
  }

  /** Locating never leaves one coordinate set without the other. */
  lemma LocateKeepsCoordinatesPaired(data: FormData, g: Geolocation)
    requires data.latitude.Some? <==> data.longitude.Some?
    ensures var d := Locate(data, g).data;
            d.latitude.Some? <==> d.longitude.Some?
  {
  }

  // ---------------------------------------------------------------- submit

  const InlineFallback: string := "Failed to submit. Please try again."
  const ToastFallback: string := "Please try again later."

  /** What one submit did: the new state, the file uploaded (if an upload was attempted),
      the row sent to the table (if an insert was attempted) and the toast raised. */
  datatype SubmitResult = SubmitResult(state: FormState, uploaded: Option<string>, inserted: Option<InsertRow>, toast: Option<Toast>)

  function FailureResult(st: FormState, e: BackendError, uploaded: Option<string>, inserted: Option<InsertRow>): (r: SubmitResult)
    ensures r.state.status == Error && r.state.data == st.data && r.state.photo == st.photo
    ensures r.state.errorMessage == FirstTruthy([e.message], InlineFallback)
    ensures r.toast == Some(Toast("Submission failed", FirstTruthy([e.message], ToastFallback), true))
  {
    SubmitResult(
      st.(status := Error, errorMessage := FirstTruthy([e.message], InlineFallback)),
      uploaded, inserted,
      Some(Toast("Submission failed", FirstTruthy([e.message], ToastFallback), true)))
  }

  /** `handleSubmit`. `prefix` is the generated part of the object key, `publicUrl` the URL
      the storage returns for it, and `uploadError`/`insertError` the outcomes of the two
      backend calls. Validation failure stops before any backend call, an upload failure
      stops before the insert, and only a full success resets the form. */
  function Submit(st: FormState, prefix: string, publicUrl: string,
                  uploadError: Option<BackendError>, insertError: Option<BackendError>): (r: SubmitResult)
    ensures r.state.status != Idle
    ensures r.state.status == Success <==> Validate(st.data, st.photo).None? && uploadError.None? && insertError.None?
    ensures Validate(st.data, st.photo).Some? ==>
              && r.state == st.(status := Error, errorMessage := Validate(st.data, st.photo).value.Message())
              && r.uploaded.None? && r.inserted.None? && r.toast.None?
    ensures Validate(st.data, st.photo).None? ==> r.uploaded == Some(StoredFileName(prefix, st.photo.value))
    ensures r.inserted.Some? ==> Validate(st.data, st.photo).None? && uploadError.None? && r.inserted == Some(BuildRow(st.data, publicUrl))
    ensures Validate(st.data, st.photo).None? && uploadError.None? ==> r.inserted.Some?
    ensures r.state.status == Error && Validate(st.data, st.photo).None? ==>
              && r.state.data == st.data && r.state.photo == st.photo
              && r.state.errorMessage == FirstTruthy([(if uploadError.Some? then uploadError else insertError).value.message], InlineFallback)
              && r.toast == Some(Toast("Submission failed", FirstTruthy([(if uploadError.Some? then uploadError else insertError).value.message], ToastFallback), true))
    ensures r.state.status == Success ==> r.state == InitialState.(status := Success) && r.toast.Some? && !r.toast.value.destructive
  {
    match Validate(st.data, st.photo)
    case Some(e) =>
      SubmitResult(st.(status := Error, errorMessage := e.Message()), None, None, None)
    case None =>
      var fileName := StoredFileName(prefix, st.photo.value);
      if uploadError.Some? then
        FailureResult(st, uploadError.value, Some(fileName), None)
      else
        var row := BuildRow(st.data, publicUrl);
        if insertError.Some? then
          FailureResult(st, insertError.value, Some(fileName), Some(row))
        else
          SubmitResult(
            FormState(InitialData, None, Success, ""),
            Some(fileName), Some(row),
            Some(Toast("Submission successful!", "Your entry has been submitted for review.", false)))
  }

  /** A successful submit clears the form, so submitting again at once is stopped by the
      validator with "Name is required" and reaches no backend call. */
  lemma ResubmitAfterSuccessIsRejected(st: FormState, prefix: string, url: string,
                                       up: Option<BackendError>, ins: Option<BackendError>,
                                       prefix': string, url': string,
                                       up': Option<BackendError>, ins': Option<BackendError>)
    requires Submit(st, prefix, url, up, ins).state.status == Success
    ensures var again := Submit(Submit(st, prefix, url, up, ins).state, prefix', url', up', ins');
            && again.state.status == Error && again.state.errorMessage == "Name is required"
            && again.uploaded.None? && again.inserted.None?
  {
    var done := Submit(st, prefix, url, up, ins).state;
    assert done == InitialState.(status := Success);
    assert IsBlank(done.data.name) by { assert Trim("") == ""; }
    assert Validate(done.data, done.photo) == Some(NameRequired);
  }

  /** A failed backend call keeps everything the user entered, so a retry submits the
      same row. */
  lemma FailureKeepsInput(st: FormState, prefix: string, url: string,
                          up: Option<BackendError>, ins: Option<BackendError>)
    requires Submit(st, prefix, url, up, ins).state.status == Error
    ensures var r := Submit(st, prefix, url, up, ins);
            r.state.data == st.data && r.state.photo == st.photo
  {
  }
}
